=== FILE: README.md ===
# A Dafny model of a MicroPython BLE client, its hexdump helper and a PM2.5 frame reader

The repository is a small MicroPython project with three parts:

- `test.py` is a Bluetooth Low Energy central.
  - A single radio callback, `irq_handler`, routes every radio event into a registry of peripherals, `BLEDevices`.
  - `BLEDevice` objects walk advertising data (length/type/payload structures) and keep a lifecycle state: idle, connecting, discovering or reading.
  - Blocking calls, `wait_for_state_change` and `read_handle`, poll that state every 10 ms while the callback runs between polls.
  - `FlowerCareDevice` reads a plant sensor's attributes at fixed handles and decodes the bytes.
- `hexdump.py` formats bytes as offset, hex and printable columns.
- `pm25.py` syncs on the `0x42 0x4D` header of a particle sensor's serial stream, reads a 30-byte body of fifteen big-endian fields and keeps the frame when its additive checksum matches.

The Dafny modules follow that structure:

| module (file) | models |
|---|---|
| `Base` (base.dfy) | bytes, u16, `Option`/`Result`, the exceptions the code raises |
| `AdParser` (ad_parser.dfy) | `parse_ad_elem`, `parse_advertising_data` |
| `Peripheral` (device.dfy) | `BLEDevice`'s state machine and handlers |
| `DeviceRegistry` (registry.dfy) | `BLEDevices`, with Python object identity kept as references into a heap of devices |
| `Dispatcher` (dispatcher.dfy) | `irq_handler` and the `scan_done` flag |
| `Driver` (driver.dfy) | `wait_for_state_change`, `read_handle` |
| `FlowerCare` (flower_care.dfy) | the four `FlowerCareDevice` reads and their decodes |
| `HexDump` (hexdump.dfy) | `ordp`, `hexdump` |
| `Pm25` (pm25.dfy) | the `while True` frame loop |

Exceptions are `Result` values.
- Python keeps whatever an operation changed before it raised, and so does the model.
  - A repeated scan whose advertising data fails part-way keeps the UUIDs gathered before the failure.
- The radio is not modelled:
  - operations return the `Command` they would issue;
  - during the caller's k-th 10 ms sleep, the radio delivers the k-th batch of a schedule of events (`Driver.Run`).

Behaviours of the code worth knowing before reading the model:

- `get_by_conn` indexes a dictionary (test.py:220-221).
  - A GATT event whose connection handle is not bound raises `KeyError` and changes nothing (`Dispatcher.UnboundGattEventIsRejected`).
- `handle_disconnect` only resets the state (test.py:152-153): the stale connection handle stays on the device.
- Starting an operation on a busy device overwrites the outstanding one; nothing fails fast.
- The deadline is checked before the state (test.py:158-160). A timed-out read may leave the device in `Reading` or, if the done event arrived during the last sleep, idle.
- A record whose length byte overruns the buffer is not an error by itself.
  - Only a read past the end raises: `ustruct`'s "buffer too small", `BufferTooSmall` here.
  - Otherwise the walk's cursor just moves past the end and the walk stops.
- In pm25.py, a header that ends the stream makes `uart.read(30)` return `None`, and `len(None)` raises.
  - `Pm25.Scan` halts with `BodyReadFailed` only then.

## Model

| member | source | states |
|---|---|---|
| Base.Le16 | test.py:76 | the `'<H'` value of two bytes: the first byte is its low byte, the second its high byte |
| Base.Be16 | pm25.py:52 | the `'>H'` value of two bytes: the first byte is its high byte, the second its low byte |
| AdParser.ReadUuids | test.py:75-78 | the UUID loop finishes iff all its reads fit in the buffer; the set afterwards is the set before plus exactly the UUIDs of the reads that fit, so a raise keeps what was added before it |
| AdParser.ParseAdElem | test.py:65-94 | one structure: the step raises iff one of its reads runs past the buffer; otherwise the cursor moves to `idx + length + 1`; flags store the byte after the type, and a flags structure whose byte is missing raises with the fields unchanged; UUID lists add the pairs their reads reach; every other type leaves the fields alone |
| AdParser.WalkFrom | test.py:99-101 | the loop's cursor never moves back; a finished walk stops at or past the end, less than 256 bytes past it; a raising walk stops on an unreadable structure inside the buffer; UUIDs are only ever added |
| AdParser.ParseAdvertisingData | test.py:96-101 | the same, for a walk from offset 0 |
| AdParser.StartsAdvance | test.py:93-101 | the structure starts a walk visits strictly increase and lie inside the buffer, so there are at most as many as bytes |
| AdParser.WalkVisitsStarts | test.py:96-101 | the walk finishes iff every structure start is readable, and then ends at the independent `End`; otherwise it stops at the first unreadable start |
| AdParser.EncodedIsFramed | test.py:66-67 | a buffer holding the sender's layout from `idx` (length byte = payload + 1, type byte, payload, repeated) is framed by those records there |
| AdParser.FramedStarts | test.py:93-101 | on a framed buffer the walker's starts are exactly the sender's record offsets and its cursor ends at the buffer's length |
| AdParser.EncodedConsumedExactly | test.py:93-101 | the framing of any encoded record list, read the walker's way (`Starts`, `End`), gives back exactly its record offsets and ends at the buffer's length; whether the walk itself finishes is `EncodedWalkCollects`' business |
| AdParser.CorrectedReadsPayloadPairs | test.py:72-78 | with the corrected bound, a UUID-list record inside the buffer never raises, adds exactly its payload's complete pairs and moves past itself |
| AdParser.HeadStep | test.py:65-94 | on an encoded record list, the corrected step over the first record moves exactly past it; a flags record stores its first payload byte, a UUID list adds its payload's pairs, any other record changes nothing |
| AdParser.WalkCollectsRecords | test.py:96-101 | round trip: the corrected walk over encoded records whose flags records carry their byte finishes at the end of the buffer, having added the UUIDs of all UUID lists (`RecordUuids`) and taken the flags of the last flags record (`LastFlags`), or kept the earlier flags when there is none |
| AdParser.EncodedWalkCollects | test.py:96-101 | the same for a whole buffer: `parse_advertising_data` of an encoding decodes exactly the encoded flags and UUIDs and consumes the buffer exactly |
| AdParser.AsWrittenOverreadsLastUuidList | test.py:75-76 | with the bound as written, a UUID list with an even-length payload that ends the buffer makes the walk raise |
| AdParser.AsWrittenAddsBogusUuid | test.py:75-78 | as written, `03 03 AA BB 02 01 06` yields UUIDs {0xBBAA, 0x0102}: the next record's header bytes are read as a UUID |
| AdParser.CorrectedOmitsBogusUuid | test.py:75-78 | corrected, the same advertisement yields only 0xBBAA |
| AdParser.FlagsAndOneUuid | test.py:65-101 | `02 01 06 03 03 AA BB`: corrected, flags 0x06, UUID 0xBBAA, all seven bytes consumed; as written, the walk raises |
| Peripheral.IsBusy | test.py:184-185 | busy iff connecting, discovering or reading |
| Peripheral.Matches | test.py:103-108 | true iff both the address type and the address are equal |
| Peripheral.NewDevice | test.py:51-63 | a new device is idle, unconnected, with an empty result slot and the given identity; with advertising data it exists iff the walk from empty fields finishes, and then holds that walk's fields; otherwise the constructor raises `BufferTooSmall` |
| Peripheral.ParseAdvertisement | test.py:96-101 | walking a known device's data changes only its advertised fields, which become the walk's fields from the device's own; UUIDs only grow; it succeeds iff the walk does, iff every structure start is readable |
| Peripheral.NewDeviceFromEncoded | test.py:51-63 | a device built from a well-framed advertisement holds exactly the flags of its last flags record and the UUIDs of its UUID lists |
| Peripheral.ReparseEncoded | test.py:96-101 | re-walking a well-framed advertisement succeeds, adds its UUIDs to those known, and replaces the flags only when it carries a flags record |
| Peripheral.Connect | test.py:180-182 | the device becomes busy connecting and nothing else about it changes; the radio is asked to connect to the device's own address |
| Peripheral.DiscoverServices | test.py:120-123 | busy discovering, nothing else changed; service discovery on the device's connection |
| Peripheral.DiscoverCharacteristics | test.py:115-118 | busy discovering, nothing else changed; discovery over the attribute range 1..0xFFFF |
| Peripheral.DiscoverDescriptors | test.py:125-128 | busy discovering, nothing else changed; discovery over the attribute range 1..0xFFFF |
| Peripheral.StartRead | test.py:164-166 | busy reading with an empty slot, nothing else changed; a read of that handle on the device's connection |
| Peripheral.HandleConnection | test.py:110-113 | the device holds the new handle and is idle; nothing else changes |
| Peripheral.OperationDone | test.py:133-150 | every discovery-done handler (and `handle_read_done`, test.py:177-178) makes the device idle whatever the status, and changes nothing else |
| Peripheral.HandleDisconnect | test.py:152-153 | the device is idle, and the stale connection handle is kept |
| Peripheral.HandleReadResult | test.py:174-175 | the slot holds the delivered bytes, overwriting any earlier value; nothing else changes |
| Peripheral.OperationsComplete | test.py:110-182 | each operation followed by its completing handler returns the idle device it started from, except for what the completion brings (the handle, the emptied slot) |
| Peripheral.ReadResultIgnoresHandle | test.py:174-175 | the attribute handle a read result reports plays no part in storing it |
| Peripheral.ReadCompletes | test.py:174-178 | result then done after a read: the device is free, holds the value and keeps its connection |
| DeviceRegistry.EmptyRegistry | test.py:213-215 | a new registry knows no device and no connection |
| DeviceRegistry.GetByAddr | test.py:217-218 | `None` iff the identity is unknown; otherwise the object filed under that identity, a device that matches it |
| DeviceRegistry.GetByConn | test.py:220-221 | raises `KeyError` iff the handle is unbound; a bound handle gives what it is bound to, its device or `None` |
| DeviceRegistry.HandleScanResult | test.py:223-231 | an unknown identity gets a new idle device iff its data walks, holding the walk's fields, the reported advertising type and signal strength, no connection handle and an empty slot, else nothing changes; a known device is walked again from its own fields, the call succeeds iff that walk does, the device keeps the walk's fields (also when it raises) and gets the new signal strength only on success, with its state, slot, handle and identity kept; no other device and no connection is touched |
| DeviceRegistry.HandleDisconnect | test.py:233-240 | an unbound handle changes nothing; a bound one resets its device (if any) and loses its binding; every device stays known by identity |
| DeviceRegistry.HandleConnect | test.py:242-249 | afterwards `get_by_conn` on the handle gives whatever `get_by_addr` gave, `None` included; only that device changes, taking the handle and becoming idle |
| DeviceRegistry.Connect | test.py:251-253 | a device the registry does not hold yet is filed under its identity, replacing any earlier object there, and is connecting; the address map gains exactly that entry and all connections are kept |
| DeviceRegistry.ConnectObject | test.py:251-253 | a device the registry already holds is changed in place: the same object is filed under its identity and is connecting, nothing else about it changes, no other object changes; the address map gains or keeps exactly that entry and all connections are kept |
| DeviceRegistry.ConnectKeepsBinding | test.py:251-253 | connecting a scanned device still bound to a handle keeps the binding: the handle and the identity both find the object that is now connecting |
| DeviceRegistry.RepeatScanAddsNoDevice | test.py:223-231 | two scans of one identity add at most one device; once it is filed, the second scan adds nothing and resolves to the same object |
| DeviceRegistry.ConnectBindDisconnect | test.py:233-253 | connect then connection event: the handle and the identity find the same idle object holding the handle; after a disconnect the handle is unbound, while the identity still finds that idle object |
| DeviceRegistry.ConnectFromUnknownDevice | test.py:242-246 | a connection from an unknown identity binds the handle to `None` and changes no device |
| Dispatcher.Apply | test.py:130-178 | what a GATT branch does to the device it finds: result events other than read results leave it unchanged, done events only make it idle, a read result only fills its slot |
| Dispatcher.HandlerFor | test.py:279-333 | the four done events complete an operation, a read result stores its data, and service, characteristic and descriptor results only log |
| Dispatcher.ForConnection | test.py:279-333 | a GATT branch raises iff the handle is unbound, leaving everything as it was; otherwise only the bound device (if any) runs its handler, and the maps are untouched |
| Dispatcher.RadioEvent | test.py:262-278 | scan, connect and disconnect events: a scan result is `handle_scan_result`'s registry and outcome, a connection event `handle_connect`'s, a disconnection `handle_disconnect`'s; `scan_done` is set only by scan-done; only a scan result can raise (`BufferTooSmall`); no result slot changes |
| Dispatcher.Dispatch | test.py:259-348 | any event keeps the registry consistent, never forgets a device or changes its identity, and only ever moves a state to idle; scan results, connections and disconnections go to the registry's handlers; it raises only on an unbound GATT handle or a failing scan walk; write-done, notify, indicate and unknown codes change nothing; a slot changes only by a read result routed to it; no GATT event changes either map or the number of objects; one that is not a done event changes no state and only fills the slot of the device a read result is routed to |
| Dispatcher.Deliver | test.py:259-269 | a run of callbacks, each its own invocation, keeps those guarantees, and `scan_done` holds afterwards iff it held before or a scan-done event came |
| Dispatcher.SlotFromRoutedReads | test.py:320-325 | after a run of callbacks a slot holds its old value or a value some read result of the run routed to that device |
| Dispatcher.CompletionFreesBoundObject | test.py:285-333 | a done event for a bound handle succeeds, makes exactly the bound device idle, leaves every other device as it was, and keeps both maps, so the handle still routes the next operation |
| Dispatcher.UnboundGattEventIsRejected | test.py:220-221 | any GATT event on an unbound handle raises `KeyError` and changes nothing |
| Driver.Polls | test.py:155-161 | the number of 10 ms sleeps after which `now - start > timeout` first holds |
| Driver.Run | test.py:157-158 | the hosts the checks see, from the start: each is the previous one with that sleep's events delivered |
| Driver.StepsEvolve | test.py:157-158 | across sleeps no device disappears or changes identity, and states only ever return to idle |
| Driver.Checks | test.py:155-161 | the hosts the deadline lets a wait check, from the start through the final check |
| Driver.WaitLoop | test.py:157-161 | from a given check on, the loop stops at the first check that sees a different state, or raises after the last allowed sleep with the state unchanged at every check before it |
| Driver.WaitForStateChange | test.py:155-161 | returns iff some check within the deadline sees a state other than `s`; it returns at the first such check; otherwise it raises the timeout after exactly `Polls(timeout)` sleeps |
| Driver.ReadStarted | test.py:164-166 | the registry after a read starts: only that device changes, as the read's start makes it |
| Driver.SlotOnlyFromWait | test.py:166-168 | a slot emptied before the wait can only hold a value that a read result routed to that device during the wait |
| Driver.ReadHandle | test.py:163-172 | issues a read of the handle on the device's connection; times out iff every check sees `Reading`, after 101 sleeps; any value returned was delivered to this device during the wait; on success or `UnableToRead` the device is idle with an empty slot |
| Driver.ReadHandleReturnsSlot | test.py:163-172 | the wait stops at the first check that sees the device out of `Reading`; the read succeeds iff the slot holds a value at that check, returns exactly that value and leaves that check's registry with the slot emptied; otherwise the host is that check's; a timeout leaves the host of the last check |
| FlowerCare.DecodeFirmwareVersion | test.py:202 | one character per byte from byte 2 on, with each byte's code; empty for shorter responses |
| FlowerCare.FirmwareVersionRoundTrip | test.py:202 | the decode gives back any Latin-1 text sent after two battery bytes |
| FlowerCare.DecodeBatteryLevel | test.py:206 | byte 0 as an unsigned integer; raises `BufferTooSmall` iff the response is empty |
| FlowerCare.ReadName | test.py:197-198 | reads handle 0x03 on the device's connection; fails only by timeout or an empty slot |
| FlowerCare.ReadTime | test.py:208-209 | reads handle 0x41 on the device's connection; fails only by timeout or an empty slot |
| FlowerCare.ReadFirmwareVersion | test.py:200-202 | succeeds iff the read of handle 0x38 does, passes its failures through, and returns the response's bytes from offset 2 as characters |
| FlowerCare.ReadBatteryLevel | test.py:204-206 | succeeds iff the read of handle 0x38 returns a non-empty response, then giving byte 0; the read's failures pass through and an empty response raises `BufferTooSmall` |
| FlowerCare.ConnectedSensor | test.py:363-365 | after connect and the connection event, handle 1 is bound to the only device, idle with an empty slot |
| FlowerCare.BatteryLevelOfResponse | test.py:204-206 | a response `3C 00` followed by its done event in the first sleep gives battery level 60 |
| FlowerCare.DoneWithoutResultFails | test.py:167-169 | a done event without a result makes `read_handle` raise "Unable to read" rather than wait on |
| FlowerCare.QuietRun | test.py:157-158 | without events every check sees the host the wait started from |
| FlowerCare.SilentRadioTimesOut | test.py:155-167 | when no event comes, every read times out after 101 sleeps |
| HexDump.Ordp | hexdump.py:8-15 | one character per byte; each is printable; a printable byte stands for itself, and `.` marks exactly the unprintable bytes and the byte `.` itself |
| HexDump.OrdpAppend | hexdump.py:11-15 | the rendering works byte by byte, so it distributes over concatenation |
| HexDump.Hex2 | hexdump.py:46 | two lower-case hexadecimal digits whose value is the byte |
| HexDump.DecimalRoundTrip | hexdump.py:43 | the decimal numeral denotes the number it was made from |
| HexDump.Pad4 | hexdump.py:43 | `'%04d'`: all decimal digits, at least four of them, exactly four below 10000, and they denote the offset |
| HexDump.SlotContents | hexdump.py:45-48 | a column holds the byte's two hex digits and a space while the byte lies below the limit, and three spaces after it |
| HexDump.HexAreaShape | hexdump.py:44-50 | the hex area is 49 characters whatever the data, with the extra space at column 24 |
| HexDump.HexAreaSlot | hexdump.py:44-50 | column j sits at 3j in the hex area, or 3j + 1 from column 8 on |
| HexDump.Row | hexdump.py:43-52 | one loop pass: the offset's digits, then 3 + 49 + 2 characters, then one printable character per byte of the next sixteen; `RowLayout` gives each part |
| HexDump.RowLayout | hexdump.py:43-53 | a row is the four-or-more-digit offset denoting `i`, three spaces, the hex area, two spaces, and the rendering of the next sixteen bytes of the whole input, not clipped by `max_length` |
| HexDump.EffectiveLength | hexdump.py:38-40 | the input's length, capped by `max_length` when one is given, and one of the two |
| HexDump.Offsets | hexdump.py:41-54 | the loop visits 0, 16, 32, … below the limit, ceil(l / 16) offsets |
| HexDump.RowsShape | hexdump.py:41-54 | ceil(l / 16) rows, row k being the one at offset 16k, below the limit |
| HexDump.RStripNewlines | hexdump.py:55 | `rstrip('\n')`: a prefix that does not end in a newline, with only newlines removed |
| HexDump.HexDump | hexdump.py:27-55 | the printed text never ends in a newline and is empty when nothing is to be dumped; `HexDumpIsJoinedRows` gives it row by row |
| HexDump.HexDumpIsJoinedRows | hexdump.py:37-55 | the printed text is the rows joined by single newlines |
| HexDump.ShortInputIsOneRow | hexdump.py:31-35 | up to sixteen bytes print as one row at offset `0000`, 58 + n characters long (70 for the docstring's twelve bytes) |
| Pm25.UnpackBe16s | pm25.py:52 | field k is the big-endian value of bytes 2k and 2k + 1 |
| Pm25.UnpackPack | pm25.py:52 | unpacking inverts the sensor's big-endian packing |
| Pm25.Checksum | pm25.py:57-59 | the header bytes plus the body bytes except the last two; at most 7283, so comparing it with a u16 needs no wrap-around |
| Pm25.Accepts | pm25.py:57-61 | the checksum test; an accepted body's received checksum is at most 7283; `AcceptsIffValid` states what acceptance means |
| Pm25.AcceptsIffValid | pm25.py:57-61 | the byte-level checksum test accepts a body iff its fields are consistent: the last is the header plus the bytes of the first fourteen |
| Pm25.RunPass | pm25.py:30-63 | one pass reads nothing iff the stream is empty, raises iff exactly the header remains, otherwise consumes 1..all of the remaining bytes; it accepts only a header plus 30 bytes, iff their checksum matches, and the frame is consistent |
| Pm25.Scan | pm25.py:30-63 | every frame kept is consistent; at most one frame per 32 bytes; the loop raises only when the stream ends with the header |
| Pm25.EncodedFrameAccepted | pm25.py:47-61 | a consistent frame as the sensor sends it is accepted and unpacks to itself |
| Pm25.ScanRoundTrip | pm25.py:30-63 | back-to-back consistent frames scan to exactly those frames, in order |
| Pm25.JunkIsSkipped | pm25.py:31-36 | bytes other than 0x42 in front of the stream change nothing |
| Pm25.ScanSkipsByte | pm25.py:34-36 | one leading byte other than 0x42 is dropped |
| Pm25.ScanSkipsPair | pm25.py:37-41 | 0x42 followed by anything but 0x4D: both bytes are dropped |
| Pm25.RejectedFrameIsDropped | pm25.py:61-63 | a full body with a mismatching checksum is dropped, and scanning resumes right after it |
| Pm25.ShortBodyIsDropped | pm25.py:47-50 | a header followed by fewer than 30 bytes yields no frame, and the loop goes idle |
| Pm25.StrayHeaderByteHidesFrame | pm25.py:34-41 | a stray 0x42 just before a frame takes the frame's 0x42 with it, so scanning resumes inside the frame |

## Left out

- The radio (`ubluetooth`):
  - calls are returned as `Command` values;
  - its events are a schedule given as a parameter, one batch per 10 ms sleep;
  - events arrive only while the caller sleeps, not between any two bytecodes.
- The clock. Each sleep takes exactly 10 ms; `ticks_ms` wrap-around and slow sleeps are not modelled.
- `print`, `hexlify` and the diagnostic `hexdump` calls in `parse_ad_elem` and `irq_handler`. They do not change state, and the dumps cannot raise.
- `BLECharacteristic`, `BLEDescriptor` and the `characteristics`/`descriptors` dictionaries (test.py:31-41, 59-60). They are never filled: the result handlers only print.
- `__str__` (test.py:187-188) and the `str(...)` of `read_name`. `FlowerCare.ReadName` returns the raw bytes.
- `unpack_from` returns 1-tuples. `flags` and each UUID are stored here as the number inside the tuple.
- `read_result` is an attribute created on first use. The model starts every device with an empty slot.
- The top-level script (test.py:351-390). It is used only as the scenario of `FlowerCare.ConnectedSensor`.
- pm25.py's UART setup and prints, the unused `PM_PACKET` layout (pm25.py:11-26), and the field names.
- `ordp`'s Python 2 branch (hexdump.py:16-22), which `__python3__ = True` switches off.
- The column test `j % 16 == 7` (hexdump.py:49) is written `j == 7`, which is the same test for `j` below 16.
- HexDump.ShortInputIsOneRow: states the docstring example's shape (one row, 70 characters, offset `0000`), not its character-by-character text.
- FlowerCare.ReadName: states only the command and the possible errors; the value is `Driver.ReadHandle`'s, whose contract describes it.
- FlowerCare.ReadTime: the same as `ReadName`, for handle 0x41.
- AdParser.WalkFrom: its own contract bounds the cursor and says UUIDs only grow; which fields it collects is stated by `AdParser.WalkCollectsRecords` for well-framed payloads, and step by step by `AdParser.ParseAdElem` otherwise.
- AdParser.ParseAdvertisingData: the same as `WalkFrom`; `AdParser.EncodedWalkCollects` gives the fields of a well-framed payload.
- AdParser.WalkCollectsRecords: requires every flags record to carry its byte. An empty flags record makes the walker take the next record's length byte as the flags, or raise at the end of the buffer; only `ParseAdElem` states that.
- Peripheral.NewDevice: walks with the corrected UUID bound, not the bound of test.py:75 (see Findings).
- Peripheral.ParseAdvertisement: walks with the corrected UUID bound (see Findings).
- DeviceRegistry.HandleScanResult: reaches the walk through `NewDevice` and `ParseAdvertisement`, so it uses the corrected UUID bound.
- Dispatcher.RadioEvent: scan results go through `HandleScanResult`, so they use the corrected UUID bound.
- Dispatcher.Dispatch: the same as `RadioEvent`.

## Findings

| source | as written | input that shows it | evidently intended | confidence | as-written member | corrected member |
|---|---|---|---|---|---|---|
| test.py:75 | `range(0, el_len, 2)` counts the type byte in `el_len`, so every UUID list gets one read too many: `(el_len + 1) // 2` reads for `(el_len - 1) // 2` complete pairs; after an even-length payload the extra read takes the two bytes past the list, after an odd-length one it straddles the list's last byte and the next | `03 03 AA BB 02 01 06` adds the bogus UUID 0x0102; `02 01 06 03 03 AA BB` raises "buffer too small" | read the `(el_len - 1) // 2` complete pairs of the payload | not executed | AdParser.AsWrittenAddsBogusUuid | AdParser.CorrectedReadsPayloadPairs |

The rest of the model (`Peripheral.NewDevice`, `Peripheral.ParseAdvertisement` and the registry and dispatcher above them) uses the corrected bound. `AdParser.EncodedWalkCollects` proves the corrected walk decodes every well-framed advertisement.

=== FILE: ad_parser.dfy ===
/**
  The advertising-data walker of `BLEDevice` (test.py:65-101).

  An advertising payload is a run of AD structures (Bluetooth Core
  Specification Supplement, Part A, section 1): one length byte counting the
  type byte and the payload, one AD type byte, then length - 1 payload bytes.
  The walker reads the two header bytes with `unpack_from`, acts on a few
  types, and moves its cursor to the next structure whatever the type was.

  The only state a walk touches is the device's `flags` and its set of 16-bit
  service class UUIDs, gathered here in `AdFields`.  A read past the end of the
  buffer raises (`ustruct` "buffer too small"); effects made before the raise
  stay, as they do on the Python object.
*/
module AdParser {
  import opened Base

  const AD_FLAGS: byte := 0x01
  const AD_UUID16_INCOMPLETE: byte := 0x02
  const AD_UUID16_COMPLETE: byte := 0x03

  /** The device fields an advertisement can change. */
  datatype AdFields = AdFields(flags: Option<byte>, uuids: set<u16>)

  /**
    How far the 16-bit UUID loop runs.  `AsWritten` is the loop of test.py:75,
    `range(0, el_len, 2)`, whose bound counts the type byte; `Corrected` reads
    only the complete pairs of the el_len - 1 payload bytes.
  */
  datatype UuidBound = AsWritten | Corrected

  predicate IsUuidList(adType: byte) {
    adType == AD_UUID16_INCOMPLETE || adType == AD_UUID16_COMPLETE
  }

  /** How many u16 reads the UUID loop makes for a structure of length byte `elLen`. */
  function UuidReads(bound: UuidBound, elLen: byte): nat {
    match bound
    case AsWritten => (elLen + 1) / 2
    case Corrected => if elLen == 0 then 0 else (elLen - 1) / 2
  }

  /**
    The UUIDs the reads number `from` .. `count - 1` at `base`, `base + 2`, ...
    obtain, leaving out every read that would run past the buffer.
  */
  function UuidsFrom(data: seq<byte>, base: nat, from: nat, count: nat): set<u16> {
    set k | from <= k < count && base + 2 * k + 2 <= |data| :: Le16(data[base + 2 * k], data[base + 2 * k + 1])
  }

  /**
    The loop of test.py:75-78: read u16 number `k`, add it, go on; the first
    read past the end raises and keeps what was added before it.
  */
  function ReadUuids(uuids: set<u16>, data: seq<byte>, base: nat, k: nat, count: nat): (r: (set<u16>, bool))
    ensures r.1 <==> k >= count || base + 2 * count <= |data|
    ensures r.0 == uuids + UuidsFrom(data, base, k, count)
    decreases count - k
  {
    if k >= count then
      (uuids, true)
    else if base + 2 * k + 2 > |data| then
      assert forall j :: k <= j ==> base + 2 * j + 2 > |data|;
      (uuids, false)
    else
      var u := Le16(data[base + 2 * k], data[base + 2 * k + 1]);
      assert UuidsFrom(data, base, k, count) == {u} + UuidsFrom(data, base, k + 1, count) by {
        forall v | v in UuidsFrom(data, base, k, count) ensures v in {u} + UuidsFrom(data, base, k + 1, count) {
          var j :| k <= j < count && base + 2 * j + 2 <= |data| && v == Le16(data[base + 2 * j], data[base + 2 * j + 1]);
          if j > k {
            assert v in UuidsFrom(data, base, k + 1, count);
          }
        }
      }
      ReadUuids(uuids + {u}, data, base, k + 1, count)
  }

  /** Every read `parse_ad_elem` makes for the structure at `idx` stays inside `data`. */
  predicate ElemReadable(bound: UuidBound, data: seq<byte>, idx: nat) {
    && idx + 2 <= |data|
    && (data[idx + 1] == AD_FLAGS ==> idx + 3 <= |data|)
    && (IsUuidList(data[idx + 1]) ==> idx + 2 + 2 * UuidReads(bound, data[idx]) <= |data|)
  }

  /** Result of one step: the fields afterwards and the next cursor, `None` if it raised. */
  datatype AdStep = AdStep(fields: AdFields, next: Option<nat>)

  /** `parse_ad_elem(data, idx)` (test.py:65-94). */
  function ParseAdElem(bound: UuidBound, f: AdFields, data: seq<byte>, idx: nat): (r: AdStep)
    ensures r.next.Some? <==> ElemReadable(bound, data, idx)
    ensures r.next.Some? ==> r.next.value == idx + data[idx] + 1
    ensures idx + 2 > |data| ==> r.fields == f
    ensures idx + 2 <= |data| && data[idx + 1] != AD_FLAGS && !IsUuidList(data[idx + 1]) ==> r.fields == f
    ensures idx + 3 <= |data| && data[idx + 1] == AD_FLAGS ==> r.fields == f.(flags := Some(data[idx + 2]))
    ensures idx + 2 == |data| && data[idx + 1] == AD_FLAGS ==> r.fields == f
    ensures idx + 2 <= |data| && IsUuidList(data[idx + 1]) ==>
              r.fields == f.(uuids := f.uuids + UuidsFrom(data, idx + 2, 0, UuidReads(bound, data[idx])))
  {
    if idx + 2 > |data| then
      AdStep(f, None)
    else
      var elLen, adType := data[idx], data[idx + 1];
      var p := idx + 2;
      var next := p + elLen - 1;
      if adType == AD_FLAGS then
        if p + 1 > |data| then AdStep(f, None) else AdStep(f.(flags := Some(data[p])), Some(next))
      else if IsUuidList(adType) then
        var (u, ok) := ReadUuids(f.uuids, data, p, 0, UuidReads(bound, elLen));
        AdStep(f.(uuids := u), if ok then Some(next) else None)
      else
        // the other types the source names only slice their payload for diagnostics
        AdStep(f, Some(next))
  }

  /** Outcome of a walk: fields afterwards, whether it finished, and where the cursor stopped. */
  datatype AdWalk = AdWalk(fields: AdFields, ok: bool, cursor: nat)

  /** The `while idx < len(data)` loop of test.py:99-101, from cursor `idx`. */
  function WalkFrom(bound: UuidBound, f: AdFields, data: seq<byte>, idx: nat): (r: AdWalk)
    ensures idx <= r.cursor
    ensures r.ok ==> |data| <= r.cursor
    ensures idx < |data| ==> r.cursor < |data| + 256
    ensures !r.ok ==> r.cursor < |data| && !ElemReadable(bound, data, r.cursor)
    ensures f.uuids <= r.fields.uuids
    decreases |data| - idx
  {
    if idx >= |data| then
      AdWalk(f, true, idx)
    else
      var step := ParseAdElem(bound, f, data, idx);
      match step.next
      case None => AdWalk(step.fields, false, idx)
      case Some(n) => WalkFrom(bound, step.fields, data, n)
  }

  /** `parse_advertising_data(data)` (test.py:96-101). */
  function ParseAdvertisingData(bound: UuidBound, f: AdFields, data: seq<byte>): (r: AdWalk)
    ensures r.ok ==> |data| <= r.cursor && (|data| > 0 ==> r.cursor < |data| + 256)
    ensures !r.ok ==> r.cursor < |data| && !ElemReadable(bound, data, r.cursor)
    ensures f.uuids <= r.fields.uuids
  {
    WalkFrom(bound, f, data, 0)
  }

  // ---------------------------------------------------------------------
  // Reference view of the framing: where the structures start.

  /** Offsets of the structures a walk from `idx` visits, readable or not. */
  function Starts(data: seq<byte>, idx: nat): seq<nat>
    decreases |data| - idx
  {
    if idx >= |data| then [] else [idx] + Starts(data, idx + data[idx] + 1)
  }

  /** Where the cursor ends when every structure is readable. */
  function End(data: seq<byte>, idx: nat): nat
    decreases |data| - idx
  {
    if idx >= |data| then idx else End(data, idx + data[idx] + 1)
  }

  /** Each structure advances the cursor by at least one, so there are at most |data| - idx of them. */
  lemma {:induction false} StartsAdvance(data: seq<byte>, idx: nat)
    ensures |Starts(data, idx)| <= if idx <= |data| then |data| - idx else 0
    ensures forall k :: 0 < k < |Starts(data, idx)| ==> Starts(data, idx)[k - 1] < Starts(data, idx)[k]
    ensures forall k :: 0 <= k < |Starts(data, idx)| ==> idx <= Starts(data, idx)[k] < |data|
    decreases |data| - idx
  {
    if idx < |data| {
      var n := idx + data[idx] + 1;
      StartsAdvance(data, n);
      var s := Starts(data, idx);
      assert s == [idx] + Starts(data, n);
      forall k | 0 < k < |s| ensures s[k - 1] < s[k] {
        if k > 1 {
          assert s[k - 1] == Starts(data, n)[k - 2];
        }
      }
    }
  }

  /**
    The walk visits exactly the structure starts: it finishes iff every one of
    them is readable, then stops at `End`; otherwise it stops at the first
    unreadable one.
  */
  lemma {:induction false} WalkVisitsStarts(bound: UuidBound, f: AdFields, data: seq<byte>, idx: nat)
    ensures WalkFrom(bound, f, data, idx).ok <==>
              forall k :: 0 <= k < |Starts(data, idx)| ==> ElemReadable(bound, data, Starts(data, idx)[k])
    ensures WalkFrom(bound, f, data, idx).ok ==> WalkFrom(bound, f, data, idx).cursor == End(data, idx)
    ensures !WalkFrom(bound, f, data, idx).ok ==>
              (exists k :: 0 <= k < |Starts(data, idx)| && Starts(data, idx)[k] == WalkFrom(bound, f, data, idx).cursor
                 && forall j :: 0 <= j < k ==> ElemReadable(bound, data, Starts(data, idx)[j]))
    decreases |data| - idx
  {
    if idx < |data| {
      var step := ParseAdElem(bound, f, data, idx);
      var s := Starts(data, idx);
      var n := idx + data[idx] + 1;
      assert s == [idx] + Starts(data, n);
      if step.next.Some? {
        WalkVisitsStarts(bound, step.fields, data, n);
        var w := WalkFrom(bound, step.fields, data, n);
        if !w.ok {
          var k :| 0 <= k < |Starts(data, n)| && Starts(data, n)[k] == w.cursor
                   && forall j :: 0 <= j < k ==> ElemReadable(bound, data, Starts(data, n)[j]);
          assert s[k + 1] == w.cursor;
          forall j | 0 <= j < k + 1 ensures ElemReadable(bound, data, s[j]) {
            if j > 0 {
              assert s[j] == Starts(data, n)[j - 1];
            }
          }
        } else {
          forall j | 0 <= j < |s| ensures ElemReadable(bound, data, s[j]) {
            if j > 0 {
              assert s[j] == Starts(data, n)[j - 1];
            }
          }
        }
      } else {
        assert s[0] == idx;
      }
    }
  }

  // ---------------------------------------------------------------------
  // Well-framed payloads.

  /** One AD structure as a sender lays it out. */
  datatype AdRecord = AdRecord(adType: byte, payload: seq<byte>)

  predicate Encodable(rs: seq<AdRecord>) {
    forall i :: 0 <= i < |rs| ==> |rs[i].payload| <= 254
  }

  /** Length byte, type byte, payload, for each structure in turn. */
  function Encode(rs: seq<AdRecord>): (data: seq<byte>)
    requires Encodable(rs)
    ensures |data| == EncodedSize(rs)
  {
    if |rs| == 0 then [] else [|rs[0].payload| + 1, rs[0].adType] + rs[0].payload + Encode(rs[1..])
  }

  function EncodedSize(rs: seq<AdRecord>): nat {
    if |rs| == 0 then 0 else 2 + |rs[0].payload| + EncodedSize(rs[1..])
  }

  /** Offsets at which the structures of `rs` begin when laid out from `base`. */
  function Offsets(rs: seq<AdRecord>, base: nat): seq<nat> {
    if |rs| == 0 then [] else [base] + Offsets(rs[1..], base + 2 + |rs[0].payload|)
  }

  /**
    The structures of `rs` lie back to back from `idx` to the end of `data`,
    each starting with its length byte.
  */
  predicate FramedAt(rs: seq<AdRecord>, data: seq<byte>, idx: nat)
    decreases |rs|
  {
    if |rs| == 0 then
      idx == |data|
    else
      && idx < |data| && data[idx] == |rs[0].payload| + 1
      && FramedAt(rs[1..], data, idx + 2 + |rs[0].payload|)
  }

  /** A buffer whose tail from `idx` is the encoding of `rs` is framed by `rs` there. */
  lemma {:induction false} EncodedIsFramed(rs: seq<AdRecord>, data: seq<byte>, idx: nat)
    requires Encodable(rs)
    requires idx <= |data| && data[idx..] == Encode(rs)
    ensures FramedAt(rs, data, idx)
    decreases |rs|
  {
    if |rs| == 0 {
      assert |data[idx..]| == 0;
    } else {
      var n := FramingStep(rs, data, idx);
      EncodedIsFramed(rs[1..], data, n);
    }
  }

  /**
    On a framed buffer the walker's framing is the sender's: it visits
    exactly the structure offsets, and its cursor ends at the buffer's length
    with no overshoot.
  */
  lemma {:induction false} FramedStarts(rs: seq<AdRecord>, data: seq<byte>, idx: nat)
    requires FramedAt(rs, data, idx)
    ensures Starts(data, idx) == Offsets(rs, idx)
    ensures End(data, idx) == |data|
    decreases |rs|
  {
    if |rs| > 0 {
      FramedStarts(rs[1..], data, idx + 2 + |rs[0].payload|);
    }
  }

  /** The walker's next cursor after the first structure is where the rest of the encoding begins. */
  lemma FramingStep(rs: seq<AdRecord>, data: seq<byte>, idx: nat) returns (n: nat)
    requires Encodable(rs) && |rs| > 0
    requires idx <= |data| && data[idx..] == Encode(rs)
    ensures idx < |data| && n == idx + data[idx] + 1 && n == idx + 2 + |rs[0].payload|
    ensures Encodable(rs[1..]) && n <= |data| && data[n..] == Encode(rs[1..])
  {
    n := idx + 2 + |rs[0].payload|;
    EncodeFirst(rs);
    assert data[idx] == data[idx..][0];
    SuffixOfSuffix(data, idx, 2 + |rs[0].payload|);
    assert Encodable(rs[1..]);
  }

  /** The first structure's length byte, and what follows the first structure. */
  lemma EncodeFirst(rs: seq<AdRecord>)
    requires Encodable(rs) && |rs| > 0
    ensures Encode(rs)[0] == |rs[0].payload| + 1
    ensures Encode(rs)[2 + |rs[0].payload|..] == Encode(rs[1..])
  {
    var head: seq<byte> := [|rs[0].payload| + 1, rs[0].adType] + rs[0].payload;
    assert Encode(rs) == head + Encode(rs[1..]);
    assert (head + Encode(rs[1..]))[|head|..] == Encode(rs[1..]);
  }

  lemma SuffixOfSuffix(data: seq<byte>, idx: nat, m: nat)
    requires idx + m <= |data|
    ensures data[idx..][m..] == data[idx + m..]
  {
  }

  /** The whole-buffer form: a well-framed payload is consumed exactly. */
  lemma EncodedConsumedExactly(rs: seq<AdRecord>)
    requires Encodable(rs)
    ensures Starts(Encode(rs), 0) == Offsets(rs, 0)
    ensures End(Encode(rs), 0) == |Encode(rs)|
  {
    assert Encode(rs)[0..] == Encode(rs);
    EncodedIsFramed(rs, Encode(rs), 0);
    FramedStarts(rs, Encode(rs), 0);
  }

  // ---------------------------------------------------------------------
  // The UUID loop bound.

  /** The UUIDs a UUID-list payload holds: its complete little-endian pairs. */
  function PayloadUuids(payload: seq<byte>): set<u16> {
    set k | 0 <= k < |payload| / 2 :: Le16(payload[2 * k], payload[2 * k + 1])
  }

  /** Reading `n` pairs at `base` of a buffer that holds `payload` there gives the payload's pairs. */
  lemma UuidsOfEmbeddedPayload(data: seq<byte>, base: nat, payload: seq<byte>)
    requires base + |payload| <= |data|
    requires forall j :: 0 <= j < |payload| ==> data[base + j] == payload[j]
    ensures UuidsFrom(data, base, 0, |payload| / 2) == PayloadUuids(payload)
  {
    var n := |payload| / 2;
    var got := UuidsFrom(data, base, 0, n);
    forall u | u in got ensures u in PayloadUuids(payload) {
      var k :| 0 <= k < n && base + 2 * k + 2 <= |data| && u == Le16(data[base + 2 * k], data[base + 2 * k + 1]);
      assert u == Le16(payload[2 * k], payload[2 * k + 1]);
    }
    forall u | u in PayloadUuids(payload) ensures u in got {
      var k :| 0 <= k < n && u == Le16(payload[2 * k], payload[2 * k + 1]);
      assert u == Le16(data[base + 2 * k], data[base + 2 * k + 1]);
    }
  }

  /**
    With the corrected bound a UUID-list structure lying inside the buffer
    never raises, adds exactly its payload's pairs, and moves past itself.
  */
  lemma CorrectedReadsPayloadPairs(f: AdFields, r: AdRecord, data: seq<byte>, idx: nat)
    requires IsUuidList(r.adType) && |r.payload| <= 254
    requires idx + 2 + |r.payload| <= |data|
    requires data[idx..idx + 2 + |r.payload|] == [|r.payload| + 1, r.adType] + r.payload
    ensures ParseAdElem(Corrected, f, data, idx).next == Some(idx + 2 + |r.payload|)
    ensures ParseAdElem(Corrected, f, data, idx).fields == f.(uuids := f.uuids + PayloadUuids(r.payload))
  {
    var enc: seq<byte> := [|r.payload| + 1, r.adType] + r.payload;
    var window := data[idx..idx + 2 + |r.payload|];
    assert data[idx] == window[0] == enc[0];
    assert data[idx + 1] == window[1] == enc[1];
    assert UuidReads(Corrected, data[idx]) == |r.payload| / 2;
    forall j | 0 <= j < |r.payload| ensures data[idx + 2 + j] == r.payload[j] {
      assert data[idx + 2 + j] == window[2 + j] == enc[2 + j];
    }
    UuidsOfEmbeddedPayload(data, idx + 2, r.payload);
  }

  // ---------------------------------------------------------------------
  // What the corrected walk collects from a well-framed payload.

  /** Every flags structure of `rs` carries its flags byte. */
  predicate FlagsCarryByte(rs: seq<AdRecord>) {
    forall i :: 0 <= i < |rs| && rs[i].adType == AD_FLAGS ==> |rs[i].payload| >= 1
  }

  /** The UUIDs the UUID-list structures of `rs` carry, all together. */
  function RecordUuids(rs: seq<AdRecord>): set<u16> {
    if |rs| == 0 then {}
    else (if IsUuidList(rs[0].adType) then PayloadUuids(rs[0].payload) else {}) + RecordUuids(rs[1..])
  }

  /** The flags byte of the last flags structure of `rs` that carries one. */
  function LastFlags(rs: seq<AdRecord>): Option<byte> {
    if |rs| == 0 then None
    else
      var later := LastFlags(rs[1..]);
      if later.Some? then later
      else if rs[0].adType == AD_FLAGS && |rs[0].payload| >= 1 then Some(rs[0].payload[0])
      else None
  }

  /** The effect the first structure of an encoding has on the corrected walk. */
  lemma HeadStep(f: AdFields, rs: seq<AdRecord>, data: seq<byte>, idx: nat)
    requires Encodable(rs) && |rs| > 0 && (rs[0].adType == AD_FLAGS ==> |rs[0].payload| >= 1)
    requires idx <= |data| && data[idx..] == Encode(rs)
    ensures ParseAdElem(Corrected, f, data, idx).next == Some(idx + 2 + |rs[0].payload|)
    ensures ParseAdElem(Corrected, f, data, idx).fields ==
              if rs[0].adType == AD_FLAGS then f.(flags := Some(rs[0].payload[0]))
              else if IsUuidList(rs[0].adType) then f.(uuids := f.uuids + PayloadUuids(rs[0].payload))
              else f
  {
    var r := rs[0];
    var head: seq<byte> := [|r.payload| + 1, r.adType] + r.payload;
    assert Encode(rs) == head + Encode(rs[1..]);
    assert data[idx..idx + |head|] == head by {
      assert data[idx..idx + |head|] == data[idx..][..|head|];
    }
    assert data[idx] == head[0] && data[idx + 1] == head[1];
    if r.adType == AD_FLAGS {
      assert data[idx + 2] == head[2];
    } else if IsUuidList(r.adType) {
      CorrectedReadsPayloadPairs(f, r, data, idx);
    }
  }

  /**
    Over a well-framed payload whose flags structures carry their byte, the
    corrected walk from `idx` finishes at the end of the buffer having added
    the UUIDs of every UUID list and taken the flags byte of the last flags
    structure, keeping the earlier flags when there is none.
  */
  lemma {:induction false} WalkCollectsRecords(f: AdFields, rs: seq<AdRecord>, data: seq<byte>, idx: nat)
    requires Encodable(rs) && FlagsCarryByte(rs)
    requires idx <= |data| && data[idx..] == Encode(rs)
    ensures WalkFrom(Corrected, f, data, idx) ==
              AdWalk(AdFields(if LastFlags(rs).Some? then LastFlags(rs) else f.flags, f.uuids + RecordUuids(rs)),
                     true, |data|)
    decreases |rs|
  {
    if |rs| == 0 {
      assert |data[idx..]| == 0;
    } else {
      var n := FramingStep(rs, data, idx);
      HeadStep(f, rs, data, idx);
      var g := ParseAdElem(Corrected, f, data, idx).fields;
      assert FlagsCarryByte(rs[1..]) by {
        forall i | 0 <= i < |rs[1..]| && rs[1..][i].adType == AD_FLAGS ensures |rs[1..][i].payload| >= 1 {
          assert rs[1..][i] == rs[i + 1];
        }
      }
      WalkCollectsRecords(g, rs[1..], data, n);
    }
  }

  /** The whole-buffer form: the corrected walk decodes exactly what was encoded. */
  lemma EncodedWalkCollects(f: AdFields, rs: seq<AdRecord>)
    requires Encodable(rs) && FlagsCarryByte(rs)
    ensures ParseAdvertisingData(Corrected, f, Encode(rs)) ==
              AdWalk(AdFields(if LastFlags(rs).Some? then LastFlags(rs) else f.flags, f.uuids + RecordUuids(rs)),
                     true, |Encode(rs)|)
  {
    assert Encode(rs)[0..] == Encode(rs);
    WalkCollectsRecords(f, rs, Encode(rs), 0);
  }

  /**
    The loop as written makes one read too many for every UUID list whose
    payload has an even length: the read at payload offset |payload|, which is
    two bytes past the structure.  When the structure ends the buffer, the
    walker raises.
  */
  lemma AsWrittenOverreadsLastUuidList(f: AdFields, r: AdRecord, data: seq<byte>)
    requires IsUuidList(r.adType) && |r.payload| <= 254 && |r.payload| % 2 == 0
    requires data == [|r.payload| + 1, r.adType] + r.payload
    ensures ParseAdElem(AsWritten, f, data, 0).next == None
    ensures !ParseAdvertisingData(AsWritten, f, data).ok
  {
    assert UuidReads(AsWritten, data[0]) == |r.payload| / 2 + 1;
  }

  /** The UUID pairs of `03 03 AA BB 02 01 06` read at offset 2, first one or both. */
  lemma BogusExamplePairs(data: seq<byte>)
    requires data == [3, 3, 0xAA, 0xBB, 2, 1, 6]
    ensures UuidsFrom(data, 2, 0, 1) == {0xBBAA}
    ensures UuidsFrom(data, 2, 0, 2) == {0xBBAA, 0x0102}
  {
    assert Le16(data[2], data[3]) == 0xBBAA;
    assert Le16(data[4], data[5]) == 0x0102;
    forall u | u in UuidsFrom(data, 2, 0, 2) ensures u in {0xBBAA, 0x0102} {
      var k :| 0 <= k < 2 && 2 + 2 * k + 2 <= |data| && u == Le16(data[2 + 2 * k], data[2 + 2 * k + 1]);
      assert k == 0 || k == 1;
    }
    forall u | u in UuidsFrom(data, 2, 0, 1) ensures u == 0xBBAA {
      var k :| 0 <= k < 1 && 2 + 2 * k + 2 <= |data| && u == Le16(data[2 + 2 * k], data[2 + 2 * k + 1]);
      assert k == 0;
    }
  }

  /**
    Followed by another structure, the extra read instead takes that
    structure's length and type bytes as a UUID: `03 03 AA BB 02 01 06` yields
    the bogus UUID 0x0102 beside 0xBBAA.
  */
  lemma AsWrittenAddsBogusUuid()
    ensures ParseAdvertisingData(AsWritten, AdFields(None, {}), [3, 3, 0xAA, 0xBB, 2, 1, 6]).fields.uuids
            == {0xBBAA, 0x0102}
  {
    var data: seq<byte> := [3, 3, 0xAA, 0xBB, 2, 1, 6];
    BogusExamplePairs(data);
    var a := ParseAdElem(AsWritten, AdFields(None, {}), data, 0);
    assert a.fields.uuids == {0xBBAA, 0x0102} && a.next == Some(4);
    var a2 := ParseAdElem(AsWritten, a.fields, data, 4);
    assert a2.fields == a.fields.(flags := Some(6)) && a2.next == Some(7);
  }

  /** The same advertisement under the corrected bound yields only 0xBBAA. */
  lemma CorrectedOmitsBogusUuid()
    ensures ParseAdvertisingData(Corrected, AdFields(None, {}), [3, 3, 0xAA, 0xBB, 2, 1, 6]).fields.uuids
            == {0xBBAA}
  {
    var data: seq<byte> := [3, 3, 0xAA, 0xBB, 2, 1, 6];
    BogusExamplePairs(data);
    var c := ParseAdElem(Corrected, AdFields(None, {}), data, 0);
    assert c.fields.uuids == {0xBBAA} && c.next == Some(4);
    var c2 := ParseAdElem(Corrected, c.fields, data, 4);
    assert c2.fields == c.fields.(flags := Some(6)) && c2.next == Some(7);
  }

  /**
    The flags-plus-one-UUID advertisement `02 01 06 03 03 AA BB`: corrected,
    it yields flags 0x06 and the single UUID 0xBBAA and consumes all seven
    bytes; as written, it raises on the UUID record.
  */
  lemma FlagsAndOneUuid()
    ensures ParseAdvertisingData(Corrected, AdFields(None, {}), [2, 1, 6, 3, 3, 0xAA, 0xBB])
            == AdWalk(AdFields(Some(6), {0xBBAA}), true, 7)
    ensures !ParseAdvertisingData(AsWritten, AdFields(None, {}), [2, 1, 6, 3, 3, 0xAA, 0xBB]).ok
  {
    var data: seq<byte> := [2, 1, 6, 3, 3, 0xAA, 0xBB];
    var f0 := AdFields(None, {});
    var s1 := ParseAdElem(Corrected, f0, data, 0);
    assert s1 == AdStep(AdFields(Some(6), {}), Some(3));
    assert UuidsFrom(data, 5, 0, 1) == {0xBBAA} by {
      assert Le16(data[5], data[6]) == 0xBBAA;
      forall u | u in UuidsFrom(data, 5, 0, 1) ensures u == 0xBBAA {
        var k :| 0 <= k < 1 && 5 + 2 * k + 2 <= |data| && u == Le16(data[5 + 2 * k], data[5 + 2 * k + 1]);
        assert k == 0;
      }
    }
    var s2 := ParseAdElem(Corrected, s1.fields, data, 3);
    assert s2 == AdStep(AdFields(Some(6), {0xBBAA}), Some(7));
    var a1 := ParseAdElem(AsWritten, f0, data, 0);
    assert a1.next == Some(3);
    assert ParseAdElem(AsWritten, a1.fields, data, 3).next == None;
  }
}

=== FILE: base.dfy ===
/** Shared vocabulary: bytes, 16-bit words, and the failure kinds the client raises. */
module Base {

  /** One octet, as `bytes` indexing yields it. */
  type byte = b: int | 0 <= b < 256

  /** An unsigned 16-bit value, as `unpack_from('<H')` / `unpack('>H')` yields it. */
  type u16 = w: int | 0 <= w < 0x1_0000

  datatype Option<+T> = None | Some(value: T)

  /** The exceptions the modelled code raises (or lets escape). */
  datatype Error =
    | BufferTooSmall           // ustruct.unpack_from past the end of the buffer
    | StateChangeTimedOut      // wait_for_state_change gave up
    | UnableToRead(handle: int) // read_handle found no captured result
    | UnboundConnection(conn: int) // KeyError from get_by_conn

  datatype Result<+T> = Ok(value: T) | Err(error: Error)

  /** Little-endian u16 from its two bytes (`'<H'`). */
  function Le16(lo: byte, hi: byte): (w: u16)
    ensures w % 256 == lo && w / 256 == hi
  {
    lo + 256 * hi
  }

  /** Big-endian u16 from its two bytes (`'>H'`). */
  function Be16(hi: byte, lo: byte): (w: u16)
    ensures w % 256 == lo && w / 256 == hi
  {
    256 * hi + lo
  }

  /** The two bytes of a u16, most significant first. */
  function Be16Bytes(w: u16): (bs: seq<byte>)
    ensures |bs| == 2 && Be16(bs[0], bs[1]) == w
  {
    [w / 256, w % 256]
  }

  /** Sum of a byte sequence. */
  function Sum(bs: seq<byte>): (s: nat)
    ensures s <= 255 * |bs|
  {
    if |bs| == 0 then 0 else Sum(bs[..|bs| - 1]) + bs[|bs| - 1]
  }

  lemma {:induction false} SumAppend(a: seq<byte>, b: seq<byte>)
    ensures Sum(a + b) == Sum(a) + Sum(b)
    decreases |b|
  {
    if |b| == 0 {
      assert a + b == a;
    } else {
      assert (a + b)[..|a + b| - 1] == a + b[..|b| - 1];
      SumAppend(a, b[..|b| - 1]);
    }
  }
}

=== FILE: device.dfy ===
/**
  One observed or targeted peripheral: `BLEDevice` (test.py:44-188).

  The four lifecycle states are the constants of test.py:44-47.  Operations a
  caller issues (connect, the three discoveries, the start of a read) put the
  device into a busy state and hand a command to the radio; handlers the event
  dispatcher calls bring it back to `Idle`.  The radio itself is not modelled:
  an operation returns the `Command` it would have issued.
*/
module Peripheral {
  import opened Base
  import opened AdParser

  /** STATE_IDLE, STATE_CONNECTING, STATE_DISCOVERING, STATE_READING (0..3). */
  datatype State = Idle | Connecting | Discovering | Reading

  /** The fire-and-forget radio calls the device makes. */
  datatype Command =
    | GapConnect(addrType: int, addr: seq<byte>)
    | GattDiscoverServices(conn: Option<int>)
    | GattDiscoverCharacteristics(conn: Option<int>, startHandle: int, endHandle: int)
    | GattDiscoverDescriptors(conn: Option<int>, startHandle: int, endHandle: int)
    | GattRead(conn: Option<int>, handle: int)

  /**
    The attributes of a `BLEDevice` the client reads or writes.  `ad` holds
    `flags` (absent until a flags record is seen) and `service_class_uuids`;
    `readResult` is the pending-result slot, `None` also when never set.
  */
  datatype Device = Device(
    addrType: int,
    addr: seq<byte>,
    advType: Option<int>,
    rssi: Option<int>,
    ad: AdFields,
    connHandle: Option<int>,
    state: State,
    readResult: Option<seq<byte>>)

  /** The whole attribute range the discoveries ask for (`1, 0xffff`). */
  const FIRST_ATTR_HANDLE := 1
  const LAST_ATTR_HANDLE := 0xFFFF

  /** Everything but the lifecycle state is as in `d`. */
  predicate OnlyStateDiffers(d: Device, e: Device) {
    e == d.(state := e.state)
  }

  /** `is_busy()` (test.py:184-185). */
  function IsBusy(d: Device): (busy: bool)
    ensures busy <==> d.state in {Connecting, Discovering, Reading}
  {
    d.state != Idle
  }

  /** `matches(addr_type, addr)` (test.py:103-108): both identity fields equal. */
  function Matches(d: Device, addrType: int, addr: seq<byte>): (m: bool)
    ensures m ==> d.addrType == addrType && d.addr == addr
    ensures d.addrType != addrType ==> !m
    ensures d.addr != addr ==> !m
  {
    if d.addrType != addrType then false
    else if d.addr != addr then false
    else true
  }

  /**
    `BLEDevice(addr_type, addr, adv_type, rssi, adv_data)` (test.py:51-63):
    a fresh idle, unconnected device; when advertising data comes with it, it
    is walked, and a walk that raises makes the constructor raise.
  */
  function NewDevice(addrType: int, addr: seq<byte>, advType: Option<int>, rssi: Option<int>,
                     advData: Option<seq<byte>>): (r: Result<Device>)
    ensures advData.None? ==> r.Ok? && r.value.ad == AdFields(None, {})
    ensures advData.Some? ==>
              (r.Ok? <==> ParseAdvertisingData(Corrected, AdFields(None, {}), advData.value).ok)
    ensures advData.Some? && r.Ok? ==>
              r.value.ad == ParseAdvertisingData(Corrected, AdFields(None, {}), advData.value).fields
    ensures r.Ok? ==> && Matches(r.value, addrType, addr)
                      && r.value.state == Idle && !IsBusy(r.value)
                      && r.value.connHandle.None? && r.value.readResult.None?
                      && r.value.advType == advType && r.value.rssi == rssi
    ensures r.Err? ==> r.error == BufferTooSmall
  {
    var d := Device(addrType, addr, advType, rssi, AdFields(None, {}), None, Idle, None);
    match advData
    case None => Ok(d)
    case Some(data) =>
      var w := ParseAdvertisingData(Corrected, d.ad, data);
      if w.ok then Ok(d.(ad := w.fields)) else Err(BufferTooSmall)
  }

  /**
    `parse_advertising_data` applied to a known device: flags and UUIDs are
    updated, and stay updated up to the failing record when the walk raises.
  */
  function ParseAdvertisement(d: Device, data: seq<byte>): (r: (Device, bool))
    ensures r.0 == d.(ad := r.0.ad)
    ensures d.ad.uuids <= r.0.ad.uuids
    ensures r.1 <==> forall k :: 0 <= k < |Starts(data, 0)| ==> ElemReadable(Corrected, data, Starts(data, 0)[k])
    ensures r.0.ad == ParseAdvertisingData(Corrected, d.ad, data).fields
    ensures r.1 == ParseAdvertisingData(Corrected, d.ad, data).ok
  {
    WalkVisitsStarts(Corrected, d.ad, data, 0);
    var w := ParseAdvertisingData(Corrected, d.ad, data);
    (d.(ad := w.fields), w.ok)
  }

  /**
    A device built from a well-framed advertisement holds the flags of its
    last flags structure and the UUIDs of all its UUID lists.
  */
  lemma NewDeviceFromEncoded(addrType: int, addr: seq<byte>, advType: Option<int>, rssi: Option<int>,
                             rs: seq<AdRecord>)
    requires Encodable(rs) && FlagsCarryByte(rs)
    ensures NewDevice(addrType, addr, advType, rssi, Some(Encode(rs)))
            == Ok(Device(addrType, addr, advType, rssi, AdFields(LastFlags(rs), RecordUuids(rs)), None, Idle, None))
  {
    var data := Encode(rs);
    EncodedWalkCollects(AdFields(None, {}), rs);
    var w := ParseAdvertisingData(Corrected, AdFields(None, {}), data);
    assert w.ok && w.fields == AdFields(LastFlags(rs), RecordUuids(rs));
  }

  /**
    Re-walking a well-framed advertisement on a known device succeeds, adds
    its UUIDs to the ones already known, and replaces the flags only when the
    advertisement carries a flags structure.
  */
  lemma ReparseEncoded(d: Device, rs: seq<AdRecord>)
    requires Encodable(rs) && FlagsCarryByte(rs)
    ensures ParseAdvertisement(d, Encode(rs)).1
    ensures ParseAdvertisement(d, Encode(rs)).0 ==
              d.(ad := AdFields(if LastFlags(rs).Some? then LastFlags(rs) else d.ad.flags, d.ad.uuids + RecordUuids(rs)))
  {
    EncodedWalkCollects(d.ad, rs);
  }

  // ---------------------------------------------------------------------
  // Operations the caller issues.

  /** `connect()` (test.py:180-182). */
  function Connect(d: Device): (r: (Device, Command))
    ensures r.0.state == Connecting && IsBusy(r.0) && OnlyStateDiffers(d, r.0)
    ensures r.1 == GapConnect(d.addrType, d.addr)
  {
    (d.(state := Connecting), GapConnect(d.addrType, d.addr))
  }

  /** `discover_services()` (test.py:120-123). */
  function DiscoverServices(d: Device): (r: (Device, Command))
    ensures r.0.state == Discovering && IsBusy(r.0) && OnlyStateDiffers(d, r.0)
    ensures r.1 == GattDiscoverServices(d.connHandle)
  {
    (d.(state := Discovering), GattDiscoverServices(d.connHandle))
  }

  /** `discover_characteristics()` (test.py:115-118). */
  function DiscoverCharacteristics(d: Device): (r: (Device, Command))
    ensures r.0.state == Discovering && IsBusy(r.0) && OnlyStateDiffers(d, r.0)
    ensures r.1 == GattDiscoverCharacteristics(d.connHandle, FIRST_ATTR_HANDLE, LAST_ATTR_HANDLE)
  {
    (d.(state := Discovering), GattDiscoverCharacteristics(d.connHandle, FIRST_ATTR_HANDLE, LAST_ATTR_HANDLE))
  }

  /** `discover_descriptors()` (test.py:125-128). */
  function DiscoverDescriptors(d: Device): (r: (Device, Command))
    ensures r.0.state == Discovering && IsBusy(r.0) && OnlyStateDiffers(d, r.0)
    ensures r.1 == GattDiscoverDescriptors(d.connHandle, FIRST_ATTR_HANDLE, LAST_ATTR_HANDLE)
  {
    (d.(state := Discovering), GattDiscoverDescriptors(d.connHandle, FIRST_ATTR_HANDLE, LAST_ATTR_HANDLE))
  }

  /**
    The first three statements of `read_handle(handle)` (test.py:164-166):
    become busy reading, ask the radio, empty the result slot.
  */
  function StartRead(d: Device, handle: int): (r: (Device, Command))
    ensures r.0.state == Reading && IsBusy(r.0) && r.0.readResult.None?
    ensures r.0 == d.(state := r.0.state, readResult := r.0.readResult)
    ensures r.1 == GattRead(d.connHandle, handle)
  {
    (d.(state := Reading, readResult := None), GattRead(d.connHandle, handle))
  }

  // ---------------------------------------------------------------------
  // Handlers the dispatcher calls.

  /** `handle_connection(conn_handle)` (test.py:110-113): binds the handle and is idle again. */
  function HandleConnection(d: Device, conn: int): (r: Device)
    ensures r.connHandle == Some(conn) && r.state == Idle && !IsBusy(r)
    ensures r == d.(connHandle := r.connHandle, state := r.state)
  {
    d.(connHandle := Some(conn), state := Idle)
  }

  /**
    `handle_service_discovery_done`, `handle_char_discovery_done`,
    `handle_desc_discovery_done` and `handle_read_done` (test.py:133-150,
    177-178) all do the same: back to idle, whatever status they report.
  */
  function OperationDone(d: Device): (r: Device)
    ensures r.state == Idle && !IsBusy(r) && OnlyStateDiffers(d, r)
  {
    d.(state := Idle)
  }

  /**
    `handle_disconnect()` (test.py:152-153): back to idle, and nothing else
    changes; in particular the stale connection handle stays.
  */
  function HandleDisconnect(d: Device): (r: Device)
    ensures r.state == Idle && !IsBusy(r) && OnlyStateDiffers(d, r)
    ensures r.connHandle == d.connHandle
  {
    d.(state := Idle)
  }

  /**
    `handle_read_result(handle, value)` (test.py:174-175): the value fills the
    slot whatever attribute handle it reports, overwriting any earlier value.
  */
  function HandleReadResult(d: Device, handle: int, value: seq<byte>): (r: Device)
    ensures r.readResult == Some(value)
    ensures r == d.(readResult := r.readResult)
  {
    d.(readResult := Some(value))
  }

  // ---------------------------------------------------------------------
  // The lifecycle as a whole.

  /**
    Each operation followed by the handler that completes it gives back the
    idle device it started from, but for what the completion brings: the
    connection handle after a connect, the emptied slot after a read.
  */
  lemma {:induction false} OperationsComplete(d: Device, conn: int, handle: int)
    requires d.state == Idle
    ensures HandleConnection(Connect(d).0, conn) == d.(connHandle := Some(conn))
    ensures OperationDone(DiscoverServices(d).0) == d
    ensures OperationDone(DiscoverCharacteristics(d).0) == d
    ensures OperationDone(DiscoverDescriptors(d).0) == d
    ensures OperationDone(StartRead(d, handle).0) == d.(readResult := None)
    ensures HandleDisconnect(StartRead(d, handle).0) == d.(readResult := None)
  {
  }

  /** The reported attribute handle plays no part in storing a read result. */
  lemma ReadResultIgnoresHandle(d: Device, h1: int, h2: int, value: seq<byte>)
    ensures HandleReadResult(d, h1, value) == HandleReadResult(d, h2, value)
  {
  }

  /** A read result delivered while reading fills the slot, and the done event then frees the device. */
  lemma ReadCompletes(d: Device, handle: int, valueHandle: int, value: seq<byte>)
    ensures var e := OperationDone(HandleReadResult(StartRead(d, handle).0, valueHandle, value));
            !IsBusy(e) && e.readResult == Some(value) && e.connHandle == d.connHandle
  {
  }
}

=== FILE: dispatcher.dfy ===
/**
  The radio's single callback, `irq_handler(event, data)` (test.py:259-348),
  and the process-level state it updates: the registry and the `scan_done`
  flag.

  Each `_IRQ_*` event kind (test.py:9-23) is one constructor of `Event`,
  carrying the tuple the radio passes.  Events about a GATT client operation
  first look the connection up with `get_by_conn`, which raises on an unbound
  handle; the exception leaves the state as it was.
*/
module Dispatcher {
  import opened Base
  import opened Peripheral
  import opened DeviceRegistry

  datatype Event =
    | ScanResult(addrType: int, addr: seq<byte>, advType: int, rssi: int, advData: seq<byte>)   // 5
    | ScanDone                                                                                   // 6
    | PeripheralConnect(conn: int, addrType: int, addr: seq<byte>)                               // 7
    | PeripheralDisconnect(conn: int, addrType: int, addr: seq<byte>)                            // 8
    | ServiceResult(conn: int, startHandle: int, endHandle: int, uuid: int)                      // 9
    | ServiceDone(conn: int, status: int)                                                        // 10
    | CharacteristicResult(conn: int, defHandle: int, valueHandle: int, properties: int, uuid: int) // 11
    | CharacteristicDone(conn: int, status: int)                                                 // 12
    | DescriptorResult(conn: int, dscHandle: int, uuid: int)                                     // 13
    | DescriptorDone(conn: int, status: int)                                                     // 14
    | ReadResult(conn: int, valueHandle: int, data: seq<byte>)                                   // 15
    | ReadDone(conn: int, valueHandle: int, status: int)                                         // 16
    | WriteDone(conn: int, valueHandle: int, status: int)                                        // 17
    | Notify(conn: int, valueHandle: int, data: seq<byte>)                                       // 18
    | Indicate(conn: int, valueHandle: int, data: seq<byte>)                                     // 19
    | Unknown(code: int)                                                                         // any other code

  /** The events whose branch calls `get_by_conn`. */
  predicate LooksUpConnection(e: Event) {
    || e.ServiceResult? || e.ServiceDone? || e.CharacteristicResult? || e.CharacteristicDone?
    || e.DescriptorResult? || e.DescriptorDone? || e.ReadResult? || e.ReadDone?
  }

  /** The events that end an operation and free the device. */
  predicate CompletesOperation(e: Event) {
    e.ServiceDone? || e.CharacteristicDone? || e.DescriptorDone? || e.ReadDone?
  }

  /** The state `irq_handler` works on: the module-level registry and `scan_done`. */
  datatype Host = Host(registry: Registry, scanDone: bool)

  function InitialHost(): (h: Host)
    ensures Valid(h.registry) && !h.scanDone
  {
    Host(EmptyRegistry(), false)
  }

  /**
    How any dispatcher step may change the known objects: none disappears,
    none changes identity, and a state can only stay or become `Idle`.
  */
  predicate Evolves(h: Host, h': Host) {
    && |h.registry.objects| <= |h'.registry.objects|
    && forall q :: 0 <= q < |h.registry.objects| ==>
         && KeyOf(h'.registry.objects[q]) == KeyOf(h.registry.objects[q])
         && h'.registry.objects[q].state in {h.registry.objects[q].state, Idle}
  }

  lemma EvolvesTransitive(h1: Host, h2: Host, h3: Host)
    requires Evolves(h1, h2) && Evolves(h2, h3)
    ensures Evolves(h1, h3)
  {
    forall q | 0 <= q < |h1.registry.objects|
      ensures h3.registry.objects[q].state in {h1.registry.objects[q].state, Idle}
    {
      assert h2.registry.objects[q].state in {h1.registry.objects[q].state, Idle};
    }
  }

  /** True when `e` is a read result that `get_by_conn` routes to object `q`. */
  predicate RoutesReadTo(h: Host, e: Event, q: Ref) {
    e.ReadResult? && e.conn in h.registry.connections && h.registry.connections[e.conn] == Some(q)
  }

  datatype Dispatched = Dispatched(host: Host, status: Result<()>)

  /** What a GATT event's branch does to the device it finds. */
  datatype Handler = LogOnly | Complete | StoreRead(valueHandle: int, data: seq<byte>)

  function Apply(handler: Handler, d: Device): (d': Device)
    ensures KeyOf(d') == KeyOf(d) && d'.state in {d.state, Idle}
    ensures d'.readResult == if handler.StoreRead? then Some(handler.data) else d.readResult
    ensures handler.LogOnly? ==> d' == d
    ensures handler.Complete? ==> d'.state == Idle && OnlyStateDiffers(d, d')
    ensures handler.StoreRead? ==> d' == d.(readResult := Some(handler.data))
  {
    match handler
    case LogOnly => d
    case Complete => OperationDone(d)
    case StoreRead(valueHandle, data) => HandleReadResult(d, valueHandle, data)
  }

  /** The handler each GATT event's branch calls. */
  function HandlerFor(e: Event): (handler: Handler)
    requires LooksUpConnection(e)
    ensures handler.Complete? <==> CompletesOperation(e)
    ensures handler.StoreRead? <==> e.ReadResult?
    ensures handler.StoreRead? ==> handler.data == e.data
    ensures handler.LogOnly? <==> e.ServiceResult? || e.CharacteristicResult? || e.DescriptorResult?
  {
    if CompletesOperation(e) then Complete
    else if e.ReadResult? then StoreRead(e.valueHandle, e.data)
    else LogOnly
  }

  /** `dev = devices.get_by_conn(conn); if dev is not None: <handler>(dev)`. */
  function ForConnection(h: Host, conn: int, handler: Handler): (r: Dispatched)
    requires Valid(h.registry)
    ensures Valid(r.host.registry) && r.host.scanDone == h.scanDone && Evolves(h, r.host)
    ensures r.status.Err? <==> conn !in h.registry.connections
    ensures r.status.Err? ==> r == Dispatched(h, Err(UnboundConnection(conn)))
    ensures r.host.registry.devices == h.registry.devices && r.host.registry.connections == h.registry.connections
    ensures |r.host.registry.objects| == |h.registry.objects|
    ensures forall q :: 0 <= q < |h.registry.objects| ==>
              r.host.registry.objects[q] ==
                if conn in h.registry.connections && h.registry.connections[conn] == Some(q)
                then Apply(handler, h.registry.objects[q]) else h.registry.objects[q]
  {
    match GetByConn(h.registry, conn)
    case Err(e) => Dispatched(h, Err(e))
    case Ok(None) => Dispatched(h, Ok(()))
    case Ok(Some(q)) =>
      Dispatched(h.(registry := SetObject(h.registry, q, Apply(handler, h.registry.objects[q]))), Ok(()))
  }

  /**
    The branches of `irq_handler` that do not look a connection up: scan
    results, scan done, connect and disconnect; the rest only log.
  */
  function RadioEvent(h: Host, e: Event): (r: Dispatched)
    requires Valid(h.registry) && !LooksUpConnection(e)
    ensures Valid(r.host.registry) && Evolves(h, r.host)
    ensures r.host.scanDone == (h.scanDone || e.ScanDone?)
    ensures r.status.Err? ==> e.ScanResult? && r.status.error == BufferTooSmall
    ensures e.WriteDone? || e.Notify? || e.Indicate? || e.Unknown? ==> r == Dispatched(h, Ok(()))
    ensures forall q :: 0 <= q < |h.registry.objects| ==>
              r.host.registry.objects[q].readResult == h.registry.objects[q].readResult
    ensures e.ScanResult? ==>
              var s := HandleScanResult(h.registry, e.addrType, e.addr, e.advType, e.rssi, e.advData);
              r.host.registry == s.reg && r.status == s.status
    ensures e.PeripheralConnect? ==>
              r.host.registry == HandleConnect(h.registry, e.addrType, e.addr, e.conn) && r.status == Ok(())
    ensures e.PeripheralDisconnect? ==>
              r.host.registry == DeviceRegistry.HandleDisconnect(h.registry, e.conn) && r.status == Ok(())
  {
    if e.ScanResult? then
      var s := HandleScanResult(h.registry, e.addrType, e.addr, e.advType, e.rssi, e.advData);
      Dispatched(h.(registry := s.reg), s.status)
    else if e.ScanDone? then
      Dispatched(h.(scanDone := true), Ok(()))
    else if e.PeripheralConnect? then
      Dispatched(h.(registry := HandleConnect(h.registry, e.addrType, e.addr, e.conn)), Ok(()))
    else if e.PeripheralDisconnect? then
      Dispatched(h.(registry := DeviceRegistry.HandleDisconnect(h.registry, e.conn)), Ok(()))
    else
      // write done, notify, indicate and unknown codes only log
      Dispatched(h, Ok(()))
  }

  /** `irq_handler(event, data)` (test.py:259-348). */
  function Dispatch(h: Host, e: Event): (r: Dispatched)
    requires Valid(h.registry)
    ensures Valid(r.host.registry) && Evolves(h, r.host)
    ensures r.host.scanDone == (h.scanDone || e.ScanDone?)
    ensures LooksUpConnection(e) && e.conn !in h.registry.connections ==>
              r == Dispatched(h, Err(UnboundConnection(e.conn)))
    ensures r.status.Err? ==>
              (LooksUpConnection(e) && e.conn !in h.registry.connections) || (e.ScanResult? && r.status.error == BufferTooSmall)
    ensures e.ScanResult? ==>
              var s := HandleScanResult(h.registry, e.addrType, e.addr, e.advType, e.rssi, e.advData);
              r.host.registry == s.reg && r.status == s.status
    ensures e.PeripheralConnect? ==>
              r.host.registry == HandleConnect(h.registry, e.addrType, e.addr, e.conn) && r.status == Ok(())
    ensures e.PeripheralDisconnect? ==>
              r.host.registry == DeviceRegistry.HandleDisconnect(h.registry, e.conn) && r.status == Ok(())
    ensures e.WriteDone? || e.Notify? || e.Indicate? || e.Unknown? ==> r == Dispatched(h, Ok(()))
    ensures forall q :: 0 <= q < |h.registry.objects| ==>
              r.host.registry.objects[q].readResult ==
                if RoutesReadTo(h, e, q) then Some(e.data) else h.registry.objects[q].readResult
    ensures LooksUpConnection(e) ==>
              && r.host.registry.devices == h.registry.devices
              && r.host.registry.connections == h.registry.connections
              && |r.host.registry.objects| == |h.registry.objects|
    ensures LooksUpConnection(e) && !CompletesOperation(e) ==>
              forall q :: 0 <= q < |h.registry.objects| ==>
                   r.host.registry.objects[q] ==
                     if RoutesReadTo(h, e, q) then h.registry.objects[q].(readResult := Some(e.data))
                     else h.registry.objects[q]
  {
    if LooksUpConnection(e) then ForConnection(h, e.conn, HandlerFor(e)) else RadioEvent(h, e)
  }

  /**
    A run of callbacks: each event is dispatched in turn, and one that raises
    does not stop the next (every callback is its own invocation).
  */
  function Deliver(h: Host, batch: seq<Event>): (h': Host)
    requires Valid(h.registry)
    ensures Valid(h'.registry) && Evolves(h, h')
    ensures h'.scanDone == (h.scanDone || ScanDone in batch)
    decreases |batch|
  {
    if |batch| == 0 then
      h
    else
      var h1 := Dispatch(h, batch[0]).host;
      var h' := Deliver(h1, batch[1..]);
      EvolvesTransitive(h, h1, h');
      assert ScanDone in batch <==> batch[0] == ScanDone || ScanDone in batch[1..] by {
        assert batch == [batch[0]] + batch[1..];
      }
      h'
  }

  /** The values of the read results a run of callbacks routes to object `q`. */
  function ReadValuesRouted(h: Host, batch: seq<Event>, q: Ref): set<seq<byte>>
    requires Valid(h.registry)
    decreases |batch|
  {
    if |batch| == 0 then {}
    else
      (if RoutesReadTo(h, batch[0], q) then {batch[0].data} else {})
      + ReadValuesRouted(Dispatch(h, batch[0]).host, batch[1..], q)
  }

  /**
    The result slot of an object after a run of callbacks holds either what
    it held before or a value some read result of the run was routed there.
  */
  lemma {:induction false} SlotFromRoutedReads(h: Host, batch: seq<Event>, q: Ref)
    requires Valid(h.registry) && q < |h.registry.objects|
    ensures var slot := Deliver(h, batch).registry.objects[q].readResult;
            slot == h.registry.objects[q].readResult || (slot.Some? && slot.value in ReadValuesRouted(h, batch, q))
    decreases |batch|
  {
    if |batch| > 0 {
      var h1 := Dispatch(h, batch[0]).host;
      SlotFromRoutedReads(h1, batch[1..], q);
    }
  }

  /**
    A done event for a bound handle frees exactly the object bound to it
    (`_IRQ_GATTC_*_DONE`, test.py:285-333); every other object is left as it
    was, and the handle stays bound, so the next operation is routed the same way.
  */
  lemma CompletionFreesBoundObject(h: Host, e: Event, q: Ref)
    requires Valid(h.registry) && CompletesOperation(e) && q < |h.registry.objects|
    requires e.conn in h.registry.connections
    ensures Dispatch(h, e).status == Ok(())
    ensures Dispatch(h, e).host.registry.devices == h.registry.devices
    ensures Dispatch(h, e).host.registry.connections == h.registry.connections
    ensures |Dispatch(h, e).host.registry.objects| == |h.registry.objects|
    ensures Dispatch(h, e).host.registry.objects[q] ==
              if h.registry.connections[e.conn] == Some(q) then OperationDone(h.registry.objects[q])
              else h.registry.objects[q]
  {
  }

  /** A GATT event for a handle nobody holds raises and changes nothing, whatever its kind. */
  lemma UnboundGattEventIsRejected(h: Host, e: Event)
    requires Valid(h.registry) && LooksUpConnection(e) && e.conn !in h.registry.connections
    ensures Dispatch(h, e).host == h && Dispatch(h, e).status == Err(UnboundConnection(e.conn))
  {
  }
}

=== FILE: driver.dfy ===
/**
  The blocking side of `BLEDevice`: `wait_for_state_change` and `read_handle`
  (test.py:155-172).

  The caller polls the device's state, sleeping 10 ms between checks; the
  dispatcher runs only while the caller sleeps.  The clock is abstract: each
  sleep takes exactly 10 ms, and the events the radio delivers during the
  k-th sleep are the batch `sched[k]` (no events once the schedule runs out).
*/
module Driver {
  import opened Base
  import opened Peripheral
  import opened DeviceRegistry
  import opened Dispatcher

  const DEFAULT_TIMEOUT_MS: nat := 1000

  /** Sleeps of 10 ms after which `now - start > timeout` first holds. */
  function Polls(timeout: nat): (n: nat)
    ensures n >= 1 && n * 10 > timeout && (n - 1) * 10 <= timeout
  {
    timeout / 10 + 1
  }

  function BatchAt(sched: seq<seq<Event>>, k: nat): seq<Event> {
    if k < |sched| then sched[k] else []
  }

  /** Each host in `hs` is valid, and each one after the first is its predecessor with that sleep's events delivered. */
  predicate Steps(hs: seq<Host>, sched: seq<seq<Event>>) {
    && (forall k :: 0 <= k < |hs| ==> Valid(hs[k].registry))
    && (forall k {:trigger Deliver(hs[k], BatchAt(sched, k))} ::
          0 <= k < |hs| - 1 ==> Valid(hs[k].registry) && hs[k + 1] == Deliver(hs[k], BatchAt(sched, k)))
  }

  /**
    The hosts the first `n` sleeps go through: `hs[k]` is what a check after
    `k` sleeps sees, each the previous one with that sleep's events delivered.
  */
  function Run(h: Host, sched: seq<seq<Event>>, n: nat): (hs: seq<Host>)
    requires Valid(h.registry)
    ensures |hs| == n + 1 && hs[0] == h
    ensures Steps(hs, sched)
  {
    if n == 0 then
      [h]
    else
      var p := Run(h, sched, n - 1);
      StepsSnoc(p, sched);
      p + [Deliver(p[|p| - 1], BatchAt(sched, |p| - 1))]
  }

  /** Appending the next step keeps a run a run. */
  lemma StepsSnoc(p: seq<Host>, sched: seq<seq<Event>>)
    requires Steps(p, sched) && |p| > 0
    ensures Valid(p[|p| - 1].registry)
    ensures Steps(p + [Deliver(p[|p| - 1], BatchAt(sched, |p| - 1))], sched)
  {
    var hs := p + [Deliver(p[|p| - 1], BatchAt(sched, |p| - 1))];
    forall k | 0 <= k < |hs| - 1
      ensures Valid(hs[k].registry) && hs[k + 1] == Deliver(hs[k], BatchAt(sched, k))
    {
      assert hs[k] == p[k];
      if k < |p| - 1 {
        assert p[k + 1] == Deliver(p[k], BatchAt(sched, k));
      }
    }
  }

  /** Along a run every object keeps its key and only ever returns to `Idle`. */
  lemma {:induction false} StepsEvolve(hs: seq<Host>, sched: seq<seq<Event>>, k: nat)
    requires Steps(hs, sched) && k < |hs|
    ensures Evolves(hs[0], hs[k])
  {
    if k > 0 {
      StepsEvolve(hs, sched, k - 1);
      EvolvesAcrossSleep(hs, sched, k);
      EvolvesTransitive(hs[0], hs[k - 1], hs[k]);
    }
  }

  /** One sleep of a run keeps the `Evolves` guarantees of the callbacks it delivers. */
  lemma EvolvesAcrossSleep(hs: seq<Host>, sched: seq<seq<Event>>, k: nat)
    requires Steps(hs, sched) && 0 < k < |hs|
    ensures Evolves(hs[k - 1], hs[k])
  {
    assert hs[k] == Deliver(hs[k - 1], BatchAt(sched, k - 1));
  }

  /** The hosts every check a wait with this timeout can make sees. */
  function Checks(h: Host, sched: seq<seq<Event>>, timeout: nat): (hs: seq<Host>)
    requires Valid(h.registry)
    ensures |hs| == Polls(timeout) + 1 && hs[0] == h
    ensures forall k :: 0 <= k < |hs| ==> Valid(hs[k].registry) && Evolves(h, hs[k])
    ensures Steps(hs, sched)
  {
    var hs := Run(h, sched, Polls(timeout));
    forall k | 0 <= k < |hs| ensures Evolves(h, hs[k]) {
      StepsEvolve(hs, sched, k);
    }
    hs
  }

  function StateOf(h: Host, q: Ref): State
    requires q < |h.registry.objects|
  {
    h.registry.objects[q].state
  }

  /** The host afterwards, how many times the caller slept, and whether the wait raised. */
  datatype Waited = Waited(host: Host, sleeps: nat, status: Result<()>)

  /**
    The `while self.state == state` loop from the check after `slept`
    sleeps, over the hosts `hs` the checks see.  After each sleep the
    deadline is checked before the state, so a change during the last
    allowed sleep still times out.
  */
  function WaitLoop(hs: seq<Host>, q: Ref, s: State, timeout: nat, slept: nat): (r: Waited)
    requires |hs| == Polls(timeout) + 1 && slept * 10 <= timeout
    requires forall k :: 0 <= k < |hs| ==> q < |hs[k].registry.objects|
    ensures slept <= r.sleeps <= Polls(timeout) && r.host == hs[r.sleeps]
    ensures forall j :: slept <= j < r.sleeps ==> StateOf(hs[j], q) == s
    ensures r.status.Ok? ==> r.sleeps < Polls(timeout) && StateOf(r.host, q) != s
    ensures r.status.Err? ==> r.status.error == StateChangeTimedOut && r.sleeps == Polls(timeout)
    decreases timeout - slept * 10
  {
    if StateOf(hs[slept], q) != s then
      Waited(hs[slept], slept, Ok(()))
    else if (slept + 1) * 10 > timeout then
      Waited(hs[slept + 1], slept + 1, Err(StateChangeTimedOut))
    else
      WaitLoop(hs, q, s, timeout, slept + 1)
  }

  /**
    `wait_for_state_change(state, timeout)` (test.py:155-161): returns as soon
    as a check finds the object's state different from `s`; raises if it is
    still `s` at every check the deadline allows.
  */
  function WaitForStateChange(h: Host, q: Ref, s: State, timeout: nat, sched: seq<seq<Event>>): (r: Waited)
    requires Valid(h.registry) && q < |h.registry.objects|
    ensures var hs := Checks(h, sched, timeout);
            && (r.status.Ok? <==> exists j :: 0 <= j < Polls(timeout) && StateOf(hs[j], q) != s)
            && r.sleeps <= Polls(timeout) && r.host == hs[r.sleeps]
            && (forall j :: 0 <= j < r.sleeps ==> StateOf(hs[j], q) == s)
            && (r.status.Ok? ==> r.sleeps < Polls(timeout) && StateOf(r.host, q) != s)
            && (r.status.Err? ==> r.status.error == StateChangeTimedOut && r.sleeps == Polls(timeout))
  {
    var hs := Checks(h, sched, timeout);
    WaitLoop(hs, q, s, timeout, 0)
  }

  /** The host once `read_handle` has marked the object reading and emptied its slot. */
  function ReadStarted(h: Host, q: Ref, handle: int): (h': Host)
    requires Valid(h.registry) && q < |h.registry.objects|
    ensures Valid(h'.registry) && |h'.registry.objects| == |h.registry.objects|
    ensures h'.registry.objects[q] == StartRead(h.registry.objects[q], handle).0
  {
    h.(registry := SetObject(h.registry, q, StartRead(h.registry.objects[q], handle).0))
  }

  /** The values read results delivered to object `q` during the first `n` sleeps. */
  function ReadsDuring(hs: seq<Host>, sched: seq<seq<Event>>, n: nat, q: Ref): set<seq<byte>>
    requires n <= |hs| && forall k :: 0 <= k < |hs| ==> Valid(hs[k].registry)
  {
    if n == 0 then {} else ReadsDuring(hs, sched, n - 1, q) + ReadValuesRouted(hs[n - 1], BatchAt(sched, n - 1), q)
  }

  /** A slot empty at the first check can only hold a value delivered between the checks. */
  lemma SlotOnlyFromWait(hs: seq<Host>, sched: seq<seq<Event>>, n: nat, q: Ref)
    requires Steps(hs, sched) && n < |hs|
    requires forall k :: 0 <= k < |hs| ==> q < |hs[k].registry.objects|
    requires hs[0].registry.objects[q].readResult.None?
    ensures var slot := hs[n].registry.objects[q].readResult;
            slot.None? || slot.value in ReadsDuring(hs, sched, n, q)
  {
    SlotSeenUpTo(hs, sched, n, q);
  }

  /** Object `q` exists at check `n` and its slot is empty or holds a value routed to it by then. */
  predicate SlotSeen(hs: seq<Host>, sched: seq<seq<Event>>, n: nat, q: Ref)
    requires n < |hs| && forall k :: 0 <= k < |hs| ==> Valid(hs[k].registry)
  {
    && q < |hs[n].registry.objects|
    && var slot := hs[n].registry.objects[q].readResult;
       slot.None? || slot.value in ReadsDuring(hs, sched, n, q)
  }

  lemma {:induction false} SlotSeenUpTo(hs: seq<Host>, sched: seq<seq<Event>>, n: nat, q: Ref)
    requires Steps(hs, sched) && n < |hs|
    requires q < |hs[0].registry.objects| && hs[0].registry.objects[q].readResult.None?
    ensures SlotSeen(hs, sched, n, q)
  {
    if n > 0 {
      SlotSeenUpTo(hs, sched, n - 1, q);
      SlotAcrossSleep(hs, sched, n, q);
    }
  }

  /** One sleep of a run: a slot value seen so far stays seen, or came with that sleep's reads. */
  lemma SlotAcrossSleep(hs: seq<Host>, sched: seq<seq<Event>>, n: nat, q: Ref)
    requires Steps(hs, sched) && 0 < n < |hs| && SlotSeen(hs, sched, n - 1, q)
    ensures SlotSeen(hs, sched, n, q)
  {
    assert hs[n] == Deliver(hs[n - 1], BatchAt(sched, n - 1));
    SlotStep(hs[n - 1], BatchAt(sched, n - 1), q, ReadsDuring(hs, sched, n - 1, q));
  }

  lemma SlotStep(p: Host, b: seq<Event>, q: Ref, seen: set<seq<byte>>)
    requires Valid(p.registry) && q < |p.registry.objects|
    requires p.registry.objects[q].readResult.None? || p.registry.objects[q].readResult.value in seen
    ensures var slot := Deliver(p, b).registry.objects[q].readResult;
            slot.None? || slot.value in seen + ReadValuesRouted(p, b, q)
  {
    SlotFromRoutedReads(p, b, q);
  }

  /** The host afterwards, the radio command issued, the sleeps taken and the value or exception. */
  datatype Outcome<T> = Outcome(host: Host, command: Command, sleeps: nat, result: Result<T>)

  /**
    `read_handle(handle)` (test.py:163-172): start the read, wait for the
    state to leave `Reading`, then hand over the captured bytes and empty the
    slot, or raise when nothing was captured.
  */
  function ReadHandle(h: Host, q: Ref, handle: int, sched: seq<seq<Event>>): (r: Outcome<seq<byte>>)
    requires Valid(h.registry) && q < |h.registry.objects|
    ensures Valid(r.host.registry) && q < |r.host.registry.objects|
    ensures KeyOf(r.host.registry.objects[q]) == KeyOf(h.registry.objects[q])
    ensures r.command == GattRead(h.registry.objects[q].connHandle, handle)
    ensures r.result.Err? ==> r.result.error in {StateChangeTimedOut, UnableToRead(handle)}
    ensures var hs := Checks(ReadStarted(h, q, handle), sched, DEFAULT_TIMEOUT_MS);
            r.result.Err? && r.result.error == StateChangeTimedOut <==>
              forall j :: 0 <= j < Polls(DEFAULT_TIMEOUT_MS) ==> StateOf(hs[j], q) == Reading
    ensures r.result == Err(StateChangeTimedOut) ==> r.sleeps == Polls(DEFAULT_TIMEOUT_MS)
    ensures r.result.Ok? || r.result == Err(UnableToRead(handle)) ==>
              !IsBusy(r.host.registry.objects[q]) && r.host.registry.objects[q].readResult.None?
    ensures var hs := Checks(ReadStarted(h, q, handle), sched, DEFAULT_TIMEOUT_MS);
            r.result.Ok? ==> r.sleeps <= Polls(DEFAULT_TIMEOUT_MS) && r.result.value in ReadsDuring(hs, sched, r.sleeps, q)
  {
    var cmd := StartRead(h.registry.objects[q], handle).1;
    var h1 := ReadStarted(h, q, handle);
    var w := WaitForStateChange(h1, q, Reading, DEFAULT_TIMEOUT_MS, sched);
    if w.status.Err? then
      Outcome(w.host, cmd, w.sleeps, Err(w.status.error))
    else
      var d := w.host.registry.objects[q];
      assert d.state == Idle by {
        assert Evolves(h1, w.host);
      }
      SlotOnlyFromWait(Checks(h1, sched, DEFAULT_TIMEOUT_MS), sched, w.sleeps, q);
      match d.readResult
      case None =>
        Outcome(w.host, cmd, w.sleeps, Err(UnableToRead(handle)))
      case Some(v) =>
        Outcome(w.host.(registry := SetObject(w.host.registry, q, d.(readResult := None))), cmd, w.sleeps, Ok(v))
  }

  /**
    What `read_handle` returns, check by check: it waits until the first check
    that finds the object out of `Reading`, and then hands over exactly what
    the slot held at that check, emptying it; on a timeout the host is the one
    of the last check.
  */
  lemma ReadHandleReturnsSlot(h: Host, q: Ref, handle: int, sched: seq<seq<Event>>)
    requires Valid(h.registry) && q < |h.registry.objects|
    ensures var hs := Checks(ReadStarted(h, q, handle), sched, DEFAULT_TIMEOUT_MS);
            var r := ReadHandle(h, q, handle, sched);
            && r.sleeps <= Polls(DEFAULT_TIMEOUT_MS)
            && (forall j :: 0 <= j < r.sleeps ==> StateOf(hs[j], q) == Reading)
            && (r.result == Err(StateChangeTimedOut) ==> r.host == hs[Polls(DEFAULT_TIMEOUT_MS)])
    ensures var hs := Checks(ReadStarted(h, q, handle), sched, DEFAULT_TIMEOUT_MS);
            var r := ReadHandle(h, q, handle, sched);
            r.result != Err(StateChangeTimedOut) ==>
              && r.sleeps < Polls(DEFAULT_TIMEOUT_MS) && StateOf(hs[r.sleeps], q) != Reading
              && (r.result.Ok? <==> hs[r.sleeps].registry.objects[q].readResult.Some?)
              && (r.result.Err? ==> r.host == hs[r.sleeps])
              && (r.result.Ok? ==>
                    && r.result.value == hs[r.sleeps].registry.objects[q].readResult.value
                    && r.host.registry == SetObject(hs[r.sleeps].registry, q, hs[r.sleeps].registry.objects[q].(readResult := None)))
  {
  }
}

=== FILE: flower_care.dfy ===
/**
  `FlowerCareDevice` (test.py:191-209): a plant sensor whose readings are
  `read_handle` at fixed attribute handles followed by a byte decode.

  `read_name` is left as the raw bytes: the source turns them into text with
  `str(bytes)`, a Python representation rather than a decode.
*/
module FlowerCare {
  import opened Base
  import opened AdParser
  import opened Peripheral
  import opened DeviceRegistry
  import opened Dispatcher
  import opened Driver

  const HANDLE_DEVICE_NAME: int := 0x03
  const HANDLE_DEVICE_TIME: int := 0x41
  const HANDLE_FIRMWARE_AND_BATTERY: int := 0x38

  /** Each byte as the character of the same code, as `map(chr, ...)` does. */
  function Chars(bs: seq<byte>): (s: string)
    ensures |s| == |bs|
  {
    if |bs| == 0 then "" else [bs[0] as char] + Chars(bs[1..])
  }

  /** The bytes of a string whose characters all have codes below 256. */
  function Latin1(s: string): (bs: seq<byte>)
    requires forall i :: 0 <= i < |s| ==> s[i] as int < 256
    ensures |bs| == |s|
  {
    if |s| == 0 then [] else [s[0] as int] + Latin1(s[1..])
  }

  lemma {:induction false} CharsLatin1(s: string)
    requires forall i :: 0 <= i < |s| ==> s[i] as int < 256
    ensures Chars(Latin1(s)) == s
  {
    if |s| > 0 {
      CharsLatin1(s[1..]);
      assert Latin1(s)[1..] == Latin1(s[1..]);
    }
  }

  lemma {:induction false} CharsPointwise(bs: seq<byte>)
    ensures forall i :: 0 <= i < |bs| ==> Chars(bs)[i] as int == bs[i]
  {
    if |bs| > 0 {
      CharsPointwise(bs[1..]);
      assert forall i :: 1 <= i < |bs| ==> Chars(bs)[i] == Chars(bs[1..])[i - 1];
    }
  }

  /**
    The decode of `read_firmware_version` (test.py:202): the characters of
    bytes 2 onward; a shorter response slices to the empty string.
  */
  function DecodeFirmwareVersion(resp: seq<byte>): (s: string)
    ensures |s| == if |resp| >= 2 then |resp| - 2 else 0
    ensures forall i :: 0 <= i < |s| ==> s[i] as int == resp[i + 2]
  {
    if |resp| < 2 then "" else (CharsPointwise(resp[2..]); Chars(resp[2..]))
  }

  /** Whatever the two battery bytes, the firmware text after them comes back unchanged. */
  lemma FirmwareVersionRoundTrip(b0: byte, b1: byte, version: string)
    requires forall i :: 0 <= i < |version| ==> version[i] as int < 256
    ensures DecodeFirmwareVersion([b0, b1] + Latin1(version)) == version
  {
    assert ([b0, b1] + Latin1(version))[2..] == Latin1(version);
    CharsLatin1(version);
  }

  /**
    The decode of `read_battery_level` (test.py:206): byte 0 as an unsigned
    integer; `unpack_from` raises on an empty response.
  */
  function DecodeBatteryLevel(resp: seq<byte>): (r: Result<byte>)
    ensures r.Ok? <==> |resp| >= 1
    ensures r.Ok? ==> r.value == resp[0]
    ensures r.Err? ==> r.error == BufferTooSmall
  {
    if |resp| < 1 then Err(BufferTooSmall) else Ok(resp[0])
  }

  /** `read_name()` (test.py:197-198): the raw bytes at handle 0x03. */
  function ReadName(h: Host, q: Ref, sched: seq<seq<Event>>): (r: Outcome<seq<byte>>)
    requires Valid(h.registry) && q < |h.registry.objects|
    ensures r.command == GattRead(h.registry.objects[q].connHandle, HANDLE_DEVICE_NAME)
    ensures r.result.Err? ==> r.result.error in {StateChangeTimedOut, UnableToRead(HANDLE_DEVICE_NAME)}
  {
    ReadHandle(h, q, HANDLE_DEVICE_NAME, sched)
  }

  /** `read_time()` (test.py:208-209): the raw bytes at handle 0x41, undecoded. */
  function ReadTime(h: Host, q: Ref, sched: seq<seq<Event>>): (r: Outcome<seq<byte>>)
    requires Valid(h.registry) && q < |h.registry.objects|
    ensures r.command == GattRead(h.registry.objects[q].connHandle, HANDLE_DEVICE_TIME)
    ensures r.result.Err? ==> r.result.error in {StateChangeTimedOut, UnableToRead(HANDLE_DEVICE_TIME)}
  {
    ReadHandle(h, q, HANDLE_DEVICE_TIME, sched)
  }

  /**
    `read_firmware_version()` (test.py:200-202): read handle 0x38 and decode
    from byte 2; the read's exceptions pass through unchanged.
  */
  function ReadFirmwareVersion(h: Host, q: Ref, sched: seq<seq<Event>>): (r: Outcome<string>)
    requires Valid(h.registry) && q < |h.registry.objects|
    ensures var raw := ReadHandle(h, q, HANDLE_FIRMWARE_AND_BATTERY, sched);
            && r.host == raw.host && r.command == raw.command && r.sleeps == raw.sleeps
            && (r.result.Ok? <==> raw.result.Ok?)
            && (r.result.Err? ==> r.result.error == raw.result.error)
            && (r.result.Ok? ==> |r.result.value| == if |raw.result.value| >= 2 then |raw.result.value| - 2 else 0)
            && (r.result.Ok? ==> forall i :: 0 <= i < |r.result.value| ==> r.result.value[i] as int == raw.result.value[i + 2])
  {
    var raw := ReadHandle(h, q, HANDLE_FIRMWARE_AND_BATTERY, sched);
    match raw.result
    case Ok(resp) => Outcome(raw.host, raw.command, raw.sleeps, Ok(DecodeFirmwareVersion(resp)))
    case Err(e) => Outcome(raw.host, raw.command, raw.sleeps, Err(e))
  }

  /**
    `read_battery_level()` (test.py:204-206): read handle 0x38 and take byte
    0; the read's exceptions pass through, and an empty response raises.
  */
  function ReadBatteryLevel(h: Host, q: Ref, sched: seq<seq<Event>>): (r: Outcome<byte>)
    requires Valid(h.registry) && q < |h.registry.objects|
    ensures var raw := ReadHandle(h, q, HANDLE_FIRMWARE_AND_BATTERY, sched);
            && r.host == raw.host && r.command == raw.command && r.sleeps == raw.sleeps
            && (r.result.Ok? <==> raw.result.Ok? && |raw.result.value| >= 1)
            && (r.result.Ok? ==> r.result.value == raw.result.value[0])
            && (raw.result.Err? ==> r.result == Err(raw.result.error))
            && (raw.result.Ok? && |raw.result.value| == 0 ==> r.result == Err(BufferTooSmall))
  {
    var raw := ReadHandle(h, q, HANDLE_FIRMWARE_AND_BATTERY, sched);
    match raw.result
    case Ok(resp) => Outcome(raw.host, raw.command, raw.sleeps, DecodeBatteryLevel(resp))
    case Err(e) => Outcome(raw.host, raw.command, raw.sleeps, Err(e))
  }

  // ---------------------------------------------------------------------
  // The script's situation: one sensor, connected on handle 1.

  const SENSOR_ADDR: seq<byte> := [0xC4, 0x7C, 0x8D, 0x6A, 0x3A, 0x27]
  const SENSOR_CONN: int := 1

  /** `devices.connect(dev)` for a new sensor object, then its connection event. */
  function ConnectedSensor(): (h: Host)
    ensures Valid(h.registry) && |h.registry.objects| == 1
    ensures h.registry.connections == map[SENSOR_CONN := Some(0)]
    ensures h.registry.objects[0].state == Idle && h.registry.objects[0].readResult.None?
  {
    var d := Device(0, SENSOR_ADDR, None, None, AdFields(None, {}), None, Idle, None);
    var (reg, _, _) := DeviceRegistry.Connect(EmptyRegistry(), d);
    Host(HandleConnect(reg, 0, SENSOR_ADDR, SENSOR_CONN), false)
  }

  /**
    A read result followed by its done event, both in the first sleep: the
    battery level of the response `3C 00` is 60.
  */
  lemma BatteryLevelOfResponse()
    ensures ReadBatteryLevel(ConnectedSensor(), 0,
              [[ReadResult(SENSOR_CONN, HANDLE_FIRMWARE_AND_BATTERY, [0x3C, 0x00]),
                ReadDone(SENSOR_CONN, HANDLE_FIRMWARE_AND_BATTERY, 0)]]).result == Ok(60)
  {
    var h1 := ReadStarted(ConnectedSensor(), 0, HANDLE_FIRMWARE_AND_BATTERY);
    var sched := [[ReadResult(SENSOR_CONN, HANDLE_FIRMWARE_AND_BATTERY, [0x3C, 0x00]),
                   ReadDone(SENSOR_CONN, HANDLE_FIRMWARE_AND_BATTERY, 0)]];
    var e0, e1 := sched[0][0], sched[0][1];
    var x := Dispatch(h1, e0).host;
    assert x.registry.objects[0].readResult == Some([0x3C, 0x00]);
    var y := Dispatch(x, e1).host;
    assert y.registry.objects[0].state == Idle;
    assert Deliver(x, [e1]) == y;
    assert Deliver(h1, sched[0]) == y by {
      assert sched[0][1..] == [e1];
    }
    var hs := Checks(h1, sched, DEFAULT_TIMEOUT_MS);
    assert hs[1] == Deliver(hs[0], BatchAt(sched, 0));
    var w := WaitForStateChange(h1, 0, Reading, DEFAULT_TIMEOUT_MS, sched);
    assert w.sleeps == 1;
  }

  /** A done event with no read result before it: `read_handle` raises instead of waiting on. */
  lemma DoneWithoutResultFails()
    ensures ReadHandle(ConnectedSensor(), 0, HANDLE_DEVICE_NAME,
              [[ReadDone(SENSOR_CONN, HANDLE_DEVICE_NAME, 0)]]).result == Err(UnableToRead(HANDLE_DEVICE_NAME))
  {
    var h1 := ReadStarted(ConnectedSensor(), 0, HANDLE_DEVICE_NAME);
    var sched := [[ReadDone(SENSOR_CONN, HANDLE_DEVICE_NAME, 0)]];
    var y := Dispatch(h1, sched[0][0]).host;
    assert y.registry.objects[0].state == Idle && y.registry.objects[0].readResult.None?;
    assert Deliver(h1, sched[0]) == y;
    var hs := Checks(h1, sched, DEFAULT_TIMEOUT_MS);
    assert hs[1] == Deliver(hs[0], BatchAt(sched, 0));
    var w := WaitForStateChange(h1, 0, Reading, DEFAULT_TIMEOUT_MS, sched);
    assert w.sleeps == 1;
  }

  /** With no events at all, every check sees the host the wait started from. */
  lemma {:induction false} QuietRadio(hs: seq<Host>, k: nat)
    requires Steps(hs, []) && k < |hs|
    ensures hs[k] == hs[0]
  {
    if k > 0 {
      QuietRadio(hs, k - 1);
      assert hs[k] == Deliver(hs[k - 1], BatchAt([], k - 1));
    }
  }

  lemma QuietRun(hs: seq<Host>)
    requires Steps(hs, [])
    ensures forall k :: 0 <= k < |hs| ==> hs[k] == hs[0]
  {
    forall k | 0 <= k < |hs| ensures hs[k] == hs[0] {
      QuietRadio(hs, k);
    }
  }

  /** When the done event never comes, any read times out after 101 sleeps of 10 ms. */
  lemma SilentRadioTimesOut(h: Host, q: Ref, handle: int)
    requires Valid(h.registry) && q < |h.registry.objects|
    ensures ReadHandle(h, q, handle, []).result == Err(StateChangeTimedOut)
    ensures ReadHandle(h, q, handle, []).sleeps == 101
  {
    var h1 := ReadStarted(h, q, handle);
    QuietRun(Checks(h1, [], DEFAULT_TIMEOUT_MS));
  }
}

=== FILE: hexdump.dfy ===
/**
  The diagnostic formatter of hexdump.py: `ordp` (Python 3 branch) and
  `hexdump(p, max_length)`.

  `hexdump` prints its text and returns `None`; `HexDump` here is the text it
  prints (without the newline `print` adds).
*/
module HexDump {
  import opened Base

  predicate IsDigit(c: char) { '0' <= c <= '9' }

  /** A lower-case hexadecimal digit. */
  predicate IsHexDigit(c: char) { '0' <= c <= '9' || 'a' <= c <= 'f' }

  // ---------------------------------------------------------------------
  // ordp

  function OrdpChar(b: byte): char {
    if b < 32 || b >= 127 then '.' else b as char
  }

  /** `ordp(c)` (hexdump.py:4-15, 24): one character per byte, `.` for the unprintable ones. */
  function Ordp(c: seq<byte>): (s: string)
    ensures |s| == |c|
    ensures forall i :: 0 <= i < |c| ==> 32 <= s[i] as int < 127
    ensures forall i :: 0 <= i < |c| ==> (32 <= c[i] < 127 <==> s[i] as int == c[i])
    ensures forall i :: 0 <= i < |c| ==> (s[i] == '.' <==> c[i] < 32 || c[i] >= 127 || c[i] == '.' as int)
  {
    if |c| == 0 then "" else [OrdpChar(c[0])] + Ordp(c[1..])
  }

  /** `ordp` works byte by byte: it distributes over concatenation. */
  lemma {:induction false} OrdpAppend(a: seq<byte>, b: seq<byte>)
    ensures Ordp(a + b) == Ordp(a) + Ordp(b)
  {
    if |a| > 0 {
      assert (a + b)[1..] == a[1..] + b;
      OrdpAppend(a[1..], b);
    }
  }

  // ---------------------------------------------------------------------
  // '%02x' and '%04d'

  function HexChar(d: nat): (c: char)
    requires d < 16
    ensures IsHexDigit(c) && HexDigitValue(c) == d
  {
    if d < 10 then (d + '0' as int) as char else (d - 10 + 'a' as int) as char
  }

  function HexDigitValue(c: char): nat {
    if '0' <= c <= '9' then c as int - '0' as int
    else if 'a' <= c <= 'f' then c as int - 'a' as int + 10
    else 0
  }

  /** `'%02x' % b`: two lower-case hexadecimal digits. */
  function Hex2(b: byte): (s: string)
    ensures |s| == 2 && IsHexDigit(s[0]) && IsHexDigit(s[1])
    ensures 16 * HexDigitValue(s[0]) + HexDigitValue(s[1]) == b
  {
    [HexChar(b / 16), HexChar(b % 16)]
  }

  function DigitChar(d: nat): char
    requires d < 10
  {
    (d + '0' as int) as char
  }

  /** The decimal numeral of `n`, without leading zeros. */
  function Decimal(n: nat): (s: string)
    ensures |s| >= 1 && forall i :: 0 <= i < |s| ==> IsDigit(s[i])
    ensures n < 10 <==> |s| == 1
    ensures n < 100 ==> |s| <= 2
    ensures n < 1000 ==> |s| <= 3
    ensures n < 10000 ==> |s| <= 4
    decreases n
  {
    if n < 10 then [DigitChar(n)] else Decimal(n / 10) + [DigitChar(n % 10)]
  }

  /** The number a string of decimal digits denotes. */
  function DecimalValue(s: string): nat {
    if |s| == 0 then 0 else 10 * DecimalValue(s[..|s| - 1]) + DigitValue(s[|s| - 1])
  }

  function DigitValue(c: char): nat {
    if IsDigit(c) then c as int - '0' as int else 0
  }

  lemma {:induction false} DecimalRoundTrip(n: nat)
    ensures DecimalValue(Decimal(n)) == n
    decreases n
  {
    if n >= 10 {
      DecimalRoundTrip(n / 10);
      var s := Decimal(n);
      assert s[..|s| - 1] == Decimal(n / 10);
    }
  }

  /** `z` zero digits. */
  function Zeros(z: nat): (s: string)
    ensures |s| == z && forall k :: 0 <= k < z ==> s[k] == '0'
  {
    if z == 0 then "" else Zeros(z - 1) + "0"
  }

  lemma {:induction false} LeadingZeros(z: nat, s: string)
    ensures DecimalValue(Zeros(z) + s) == DecimalValue(s)
    decreases |s|
  {
    var zs := Zeros(z);
    if |s| == 0 {
      assert zs + s == zs;
      AllZeros(z);
    } else {
      assert (zs + s)[..|zs + s| - 1] == zs + s[..|s| - 1];
      LeadingZeros(z, s[..|s| - 1]);
    }
  }

  lemma {:induction false} AllZeros(z: nat)
    ensures DecimalValue(Zeros(z)) == 0
  {
    if z > 0 {
      assert Zeros(z)[..z - 1] == Zeros(z - 1);
      AllZeros(z - 1);
    }
  }

  /** `'%04d' % n`: the decimal numeral, zero-padded on the left to four digits. */
  function Pad4(n: nat): (s: string)
    ensures |s| == if |Decimal(n)| >= 4 then |Decimal(n)| else 4
    ensures n < 10000 ==> |s| == 4
    ensures forall i :: 0 <= i < |s| ==> IsDigit(s[i])
    ensures DecimalValue(s) == n
  {
    var d := Decimal(n);
    var z := if |d| >= 4 then 0 else 4 - |d|;
    LeadingZeros(z, d);
    DecimalRoundTrip(n);
    Zeros(z) + d
  }

  // ---------------------------------------------------------------------
  // Slicing concatenations

  lemma SliceAppend(a: string, b: string, o: nat, n: nat)
    requires o + n <= |b|
    ensures (a + b)[|a| + o..|a| + o + n] == b[o..o + n]
  {
    assert (a + b)[|a|..] == b;
  }

  /** Where each of five concatenated pieces sits. */
  lemma FiveParts(a: string, b: string, c: string, d: string, e: string)
    ensures var r := a + b + c + d + e;
            && |r| == |a| + |b| + |c| + |d| + |e|
            && r[..|a|] == a
            && r[|a|..|a| + |b|] == b
            && r[|a| + |b|..|a| + |b| + |c|] == c
            && r[|a| + |b| + |c|..|a| + |b| + |c| + |d|] == d
            && r[|a| + |b| + |c| + |d|..] == e
  {
    var r := a + b + c + d + e;
    assert r == a + (b + c + d + e);
    SliceAppend(a, b + c + d + e, 0, |b|);
    assert r == (a + b) + (c + d + e);
    SliceAppend(a + b, c + d + e, 0, |c|);
    assert r == (a + b + c) + (d + e);
    SliceAppend(a + b + c, d + e, 0, |d|);
    assert r == (a + b + c + d) + e;
  }

  // ---------------------------------------------------------------------
  // One row

  /** Slot `j` of the row at offset `i`: the byte in hex and a space, or three spaces past the end. */
  function Slot(p: seq<byte>, i: nat, l: int, j: nat): (s: string)
    requires l <= |p|
    ensures |s| == 3
  {
    if i + j < l then Hex2(p[i + j]) + " " else "   "
  }

  /**
    A slot holds the byte as two lower-case hex digits and a space while the
    byte lies below `l`, and three spaces from there on.
  */
  lemma SlotContents(p: seq<byte>, i: nat, l: int, j: nat)
    requires l <= |p|
    ensures Slot(p, i, l, j)[2] == ' '
    ensures i + j < l ==> IsHexDigit(Slot(p, i, l, j)[0]) && IsHexDigit(Slot(p, i, l, j)[1])
    ensures i + j < l ==> 16 * HexDigitValue(Slot(p, i, l, j)[0]) + HexDigitValue(Slot(p, i, l, j)[1]) == p[i + j]
    ensures i + j >= l ==> Slot(p, i, l, j) == "   "
  {
  }

  /** The extra space after slot 7. */
  function Gap(j: nat): (s: string)
    ensures |s| == if j == 7 then 1 else 0
  {
    if j == 7 then " " else ""
  }

  /** Where slot `j` begins in the hex area: one extra space after slot 7. */
  function SlotOffset(j: nat): nat {
    3 * j + (if j >= 8 then 1 else 0)
  }

  /**
    Slots `j` .. 15, with the extra space after slot 7 (the inner loop of
    hexdump.py:44-50; its test `j % 16 == 7` is `j == 7` for `j` below 16).
  */
  function HexAreaFrom(p: seq<byte>, i: nat, l: int, j: nat): string
    requires l <= |p| && j <= 16
    decreases 16 - j
  {
    if j == 16 then ""
    else Slot(p, i, l, j) + Gap(j) + HexAreaFrom(p, i, l, j + 1)
  }

  lemma {:induction false} HexAreaFromLength(p: seq<byte>, i: nat, l: int, j: nat)
    requires l <= |p| && j <= 16
    ensures |HexAreaFrom(p, i, l, j)| == SlotOffset(16) - SlotOffset(j)
    decreases 16 - j
  {
    if j < 16 {
      HexAreaFromLength(p, i, l, j + 1);
    }
  }

  /** Character `t` of slot `k` sits `SlotOffset(k) - SlotOffset(j) + t` characters into the area from slot `j`. */
  lemma {:induction false} HexAreaFromSlot(p: seq<byte>, i: nat, l: int, j: nat, k: nat, t: nat)
    requires l <= |p| && j <= k < 16 && t < 3
    ensures |HexAreaFrom(p, i, l, j)| == SlotOffset(16) - SlotOffset(j)
    ensures HexAreaFrom(p, i, l, j)[SlotOffset(k) - SlotOffset(j) + t] == Slot(p, i, l, k)[t]
    decreases k - j
  {
    HexAreaFromLength(p, i, l, j);
    var head := Slot(p, i, l, j) + Gap(j);
    if k > j {
      HexAreaFromSlot(p, i, l, j + 1, k, t);
      var o := SlotOffset(k) - SlotOffset(j + 1) + t;
      assert |head| == SlotOffset(j + 1) - SlotOffset(j);
      assert (head + HexAreaFrom(p, i, l, j + 1))[|head| + o] == HexAreaFrom(p, i, l, j + 1)[o];
    }
  }

  /** The column just before slot 8 is the extra space. */
  lemma {:induction false} HexAreaFromGap(p: seq<byte>, i: nat, l: int, j: nat)
    requires l <= |p| && j <= 7
    ensures |HexAreaFrom(p, i, l, j)| == SlotOffset(16) - SlotOffset(j)
            && HexAreaFrom(p, i, l, j)[SlotOffset(8) - SlotOffset(j) - 1] == ' '
    decreases 7 - j
  {
    HexAreaFromLength(p, i, l, j);
    var head := Slot(p, i, l, j) + Gap(j);
    if j < 7 {
      HexAreaFromGap(p, i, l, j + 1);
      var o := SlotOffset(8) - SlotOffset(j + 1) - 1;
      assert |head| == 3;
      assert (head + HexAreaFrom(p, i, l, j + 1))[3 + o] == HexAreaFrom(p, i, l, j + 1)[o];
    } else {
      assert head[3] == ' ';
    }
  }

  /** The hex area of a row (hexdump.py:44-50). */
  function HexArea(p: seq<byte>, i: nat, l: int): string
    requires l <= |p|
  {
    HexAreaFrom(p, i, l, 0)
  }

  /** The hex area is always 49 characters, and the column between the two groups of eight is a space. */
  lemma HexAreaShape(p: seq<byte>, i: nat, l: int)
    requires l <= |p|
    ensures |HexArea(p, i, l)| == 49
    ensures HexArea(p, i, l)[24] == ' '
  {
    HexAreaFromGap(p, i, l, 0);
  }

  /** Character `t` of slot `j` is character `SlotOffset(j) + t` of the hex area. */
  lemma HexAreaSlot(p: seq<byte>, i: nat, l: int, j: nat, t: nat)
    requires l <= |p| && j < 16 && t < 3
    ensures |HexArea(p, i, l)| == 49
    ensures HexArea(p, i, l)[SlotOffset(j) + t] == Slot(p, i, l, j)[t]
  {
    HexAreaFromSlot(p, i, l, 0, j, t);
  }

  function Min(a: int, b: int): int {
    if a <= b then a else b
  }

  /** The row at offset `i` (hexdump.py:43-52), without its newline. */
  function Row(p: seq<byte>, i: nat, l: int): (r: string)
    requires l <= |p| && i <= |p|
    ensures |r| == |Pad4(i)| + 3 + 49 + 2 + Min(16, |p| - i)
    ensures r[..|Pad4(i)|] == Pad4(i)
  {
    HexAreaShape(p, i, l);
    Pad4(i) + "   " + HexArea(p, i, l) + "  " + Ordp(p[i..Min(i + 16, |p|)])
  }

  /**
    A row is its offset as four-or-more decimal digits, three spaces, the
    49-character hex area (see `HexAreaShape` and `HexAreaSlot`), two spaces, and the printable rendering of the
    next sixteen bytes of `p`, which `max_length` does not clip.
  */
  lemma RowLayout(p: seq<byte>, i: nat, l: int)
    requires l <= |p| && i <= |p|
    ensures var r := Row(p, i, l);
            var w := |Pad4(i)|;
            && |r| == w + 3 + 49 + 2 + Min(16, |p| - i)
            && r[..w] == Pad4(i) && DecimalValue(r[..w]) == i
            && r[w..w + 3] == "   "
            && r[w + 3..w + 52] == HexArea(p, i, l)
            && r[w + 52..w + 54] == "  "
            && r[w + 54..] == Ordp(p[i..Min(i + 16, |p|)])
  {
    HexAreaShape(p, i, l);
    var r := Row(p, i, l);
    var w := |Pad4(i)|;
    var area := HexArea(p, i, l);
    var ascii := Ordp(p[i..Min(i + 16, |p|)]);
    assert r == Pad4(i) + "   " + area + "  " + ascii;
    FiveParts(Pad4(i), "   ", area, "  ", ascii);
  }

  // ---------------------------------------------------------------------
  // The whole dump

  /** `l`: the length of `p`, capped by `max_length` when one is given (hexdump.py:38-40). */
  function EffectiveLength(n: nat, maxLength: Option<int>): (l: int)
    ensures l <= n
    ensures maxLength.None? ==> l == n
    ensures maxLength.Some? ==> l == n || l == maxLength.value
    ensures maxLength.Some? ==> l <= maxLength.value
  {
    match maxLength
    case None => n
    case Some(m) => if n <= m then n else m
  }

  /** The values the loop's `i` takes: `i`, `i + 16`, ... while below `l` (hexdump.py:41-42, 54). */
  function Offsets(l: int, i: nat): (offs: seq<nat>)
    ensures |offs| == RowCount(l - i)
    ensures forall k :: 0 <= k < |offs| ==> offs[k] == i + 16 * k && offs[k] < l
    decreases l - i
  {
    if i >= l then
      []
    else
      var rest := Offsets(l, i + 16);
      assert forall k :: 0 < k <= |rest| ==> ([i] + rest)[k] == rest[k - 1];
      [i] + rest
  }

  function RowCount(l: int): nat {
    if l <= 0 then 0 else (l + 15) / 16
  }

  /** The rows the loop appends, one per offset. */
  function Rows(p: seq<byte>, l: int): (rows: seq<string>)
    requires l <= |p|
  {
    var offs := Offsets(l, 0);
    seq(|offs|, k requires 0 <= k < |offs| => Row(p, offs[k], l))
  }

  /** Row `k` is the one at offset `16 k`, and it lies below `l`. */
  lemma RowsAt(p: seq<byte>, l: int, k: nat)
    requires l <= |p| && k < |Rows(p, l)|
    ensures 16 * k < l && Rows(p, l)[k] == Row(p, 16 * k, l)
  {
    var offs := Offsets(l, 0);
    assert offs[k] == 16 * k;
  }

  /** Each row followed by `'\n'`, as the output list collects them. */
  function Terminated(rows: seq<string>): string {
    if |rows| == 0 then "" else rows[0] + "\n" + Terminated(rows[1..])
  }

  /** `str.rstrip('\n')`. */
  function RStripNewlines(s: string): (t: string)
    ensures |t| <= |s| && t == s[..|t|]
    ensures |t| == 0 || t[|t| - 1] != '\n'
    ensures forall k :: |t| <= k < |s| ==> s[k] == '\n'
  {
    if |s| > 0 && s[|s| - 1] == '\n' then RStripNewlines(s[..|s| - 1]) else s
  }

  /** The text `hexdump(p, max_length)` prints (hexdump.py:27-55). */
  function HexDump(p: seq<byte>, maxLength: Option<int>): (text: string)
    ensures |text| == 0 || text[|text| - 1] != '\n'
    ensures EffectiveLength(|p|, maxLength) <= 0 ==> text == ""
  {
    var l := EffectiveLength(|p|, maxLength);
    RStripNewlines(Terminated(Rows(p, l)))
  }

  /** The rows joined by single newlines. */
  function Join(rows: seq<string>): string {
    if |rows| == 0 then "" else if |rows| == 1 then rows[0] else rows[0] + "\n" + Join(rows[1..])
  }

  /** A row ends in its printable column, never in a newline. */
  lemma RowEndsPrintable(p: seq<byte>, i: nat, l: int)
    requires l <= |p| && i < l
    ensures |Row(p, i, l)| > 0 && Row(p, i, l)[|Row(p, i, l)| - 1] != '\n'
  {
    var r := Row(p, i, l);
    var a := Ordp(p[i..Min(i + 16, |p|)]);
    assert r[|r| - 1] == a[|a| - 1];
  }

  lemma {:induction false} TerminatedIsJoinPlusNewline(rows: seq<string>)
    requires |rows| > 0
    ensures Terminated(rows) == Join(rows) + "\n"
  {
    if |rows| > 1 {
      TerminatedIsJoinPlusNewline(rows[1..]);
    }
  }

  lemma {:induction false} JoinEndsWithLastRow(rows: seq<string>)
    requires |rows| > 0 && |rows[|rows| - 1]| > 0
    ensures |Join(rows)| > 0 && Join(rows)[|Join(rows)| - 1] == rows[|rows| - 1][|rows[|rows| - 1]| - 1]
  {
    if |rows| > 1 {
      JoinEndsWithLastRow(rows[1..]);
    }
  }

  /** Terminating every row and stripping trailing newlines joins them, when the last row does not end in one. */
  lemma RStripTerminated(rows: seq<string>)
    requires |rows| > 0 ==> |rows[|rows| - 1]| > 0 && rows[|rows| - 1][|rows[|rows| - 1]| - 1] != '\n'
    ensures RStripNewlines(Terminated(rows)) == Join(rows)
  {
    if |rows| > 0 {
      JoinEndsWithLastRow(rows);
      TerminatedIsJoinPlusNewline(rows);
      var j := Join(rows);
      assert (j + "\n")[..|j|] == j;
      assert RStripNewlines(j + "\n") == RStripNewlines(j);
    }
  }

  /** The last row ends in its printable column. */
  lemma LastRowEndsPrintable(p: seq<byte>, l: int)
    requires l <= |p|
    ensures var rows := Rows(p, l);
            |rows| > 0 ==> |rows[|rows| - 1]| > 0 && rows[|rows| - 1][|rows[|rows| - 1]| - 1] != '\n'
  {
    var rows := Rows(p, l);
    if |rows| > 0 {
      RowsAt(p, l, |rows| - 1);
      RowEndsPrintable(p, 16 * (|rows| - 1), l);
    }
  }

  /** There are ceil(l / 16) rows, row `k` being the one at offset `16 k`; none when `l <= 0`. */
  lemma RowsShape(p: seq<byte>, l: int)
    requires l <= |p|
    ensures |Rows(p, l)| == RowCount(l)
    ensures forall k :: 0 <= k < RowCount(l) ==> 16 * k < l && Rows(p, l)[k] == Row(p, 16 * k, l)
  {
    forall k | 0 <= k < RowCount(l) ensures 16 * k < l && Rows(p, l)[k] == Row(p, 16 * k, l) {
      RowsAt(p, l, k);
    }
  }

  /**
    The printed text is the rows joined by single newlines: `rstrip` removes
    exactly the final newline, since no row ends in one.
  */
  lemma HexDumpIsJoinedRows(p: seq<byte>, maxLength: Option<int>)
    ensures HexDump(p, maxLength) == Join(Rows(p, EffectiveLength(|p|, maxLength)))
  {
    var l := EffectiveLength(|p|, maxLength);
    LastRowEndsPrintable(p, l);
    RStripTerminated(Rows(p, l));
  }

  /**
    Up to sixteen bytes print as a single row starting at offset `0000`, as in
    the docstring's example (hexdump.py:31-35), where twelve bytes give 70
    characters.
  */
  lemma ShortInputIsOneRow(p: seq<byte>)
    requires 0 < |p| <= 16
    ensures HexDump(p, None) == Row(p, 0, |p|)
    ensures |HexDump(p, None)| == 58 + |p|
    ensures HexDump(p, None)[..4] == "0000"
  {
    HexDumpIsJoinedRows(p, None);
    RowsShape(p, |p|);
    assert Rows(p, |p|) == [Row(p, 0, |p|)];
    RowLayout(p, 0, |p|);
    Pad4Zero();
  }

  lemma Pad4Zero()
    ensures Pad4(0) == "0000"
  {
    assert Decimal(0) == "0";
    assert Zeros(3) == "000";
  }
}

=== FILE: pm25.dfy ===
/**
  The frame recogniser of pm25.py (lines 30-63): the serial loop that syncs on
  the header bytes 0x42 0x4D, reads a 30-byte body of fifteen big-endian u16
  fields, and keeps the frame when its additive checksum matches the last
  field.

  The UART is a finite byte sequence: `uart.read(n)` returns the next `n`
  bytes, fewer when fewer remain, and `None` when none remain.  The frames the
  loop accepts are the scan's output.
*/
module Pm25 {
  import opened Base

  const HEADER_0: byte := 0x42  // 'B'
  const HEADER_1: byte := 0x4D  // 'M'
  const FIELD_COUNT: nat := 15
  /** `ustruct.calcsize('>HHHHHHHHHHHHHHH')`. */
  const BODY_SIZE: nat := 30

  /** The fifteen unpacked fields, from `framelen` to the received checksum. */
  datatype Frame = Frame(fields: seq<u16>)

  // ---------------------------------------------------------------------
  // Big-endian fields

  /** `ustruct.unpack('>H...', bs)`: a big-endian u16 from each byte pair. */
  function UnpackBe16s(bs: seq<byte>): (ws: seq<u16>)
    ensures |ws| == |bs| / 2
    ensures forall k :: 0 <= k < |ws| ==> ws[k] == Be16(bs[2 * k], bs[2 * k + 1])
  {
    if |bs| < 2 then
      []
    else
      var rest := UnpackBe16s(bs[2..]);
      assert forall k :: 0 < k <= |rest| ==> ([Be16(bs[0], bs[1])] + rest)[k] == rest[k - 1];
      [Be16(bs[0], bs[1])] + rest
  }

  /** The bytes of each field, most significant first: what the sensor sends. */
  function PackBe16s(ws: seq<u16>): (bs: seq<byte>)
    ensures |bs| == 2 * |ws|
  {
    if |ws| == 0 then [] else Be16Bytes(ws[0]) + PackBe16s(ws[1..])
  }

  lemma {:induction false} UnpackPack(ws: seq<u16>)
    ensures UnpackBe16s(PackBe16s(ws)) == ws
  {
    if |ws| > 0 {
      var bs := PackBe16s(ws);
      assert bs[2..] == PackBe16s(ws[1..]);
      UnpackPack(ws[1..]);
    }
  }

  // ---------------------------------------------------------------------
  // The checksum

  /**
    `calc_checksum` (pm25.py:57-59): the two header bytes plus every body
    byte but the last two.  It is never reduced modulo 2^16, and need not be:
    it stays below 7284.
  */
  function Checksum(body: seq<byte>): (c: nat)
    requires |body| == BODY_SIZE
    ensures c <= 0x42 + 0x4D + 28 * 255 < 0x1_0000
  {
    HEADER_0 + HEADER_1 + Sum(body[..BODY_SIZE - 2])
  }

  /** The frame passes the check of pm25.py:61: computed and received checksums agree. */
  function Accepts(body: seq<byte>): (ok: bool)
    requires |body| == BODY_SIZE
    ensures ok ==> Be16(body[28], body[29]) <= 0x42 + 0x4D + 28 * 255
  {
    Checksum(body) == Be16(body[28], body[29])
  }

  /** The sum of the bytes of the fields, each counted as its two bytes. */
  function ByteSum(ws: seq<u16>): nat {
    if |ws| == 0 then 0 else ws[0] / 256 + ws[0] % 256 + ByteSum(ws[1..])
  }

  /**
    A frame whose fields are consistent, said in terms of the fields alone:
    fifteen of them, the last being the header bytes plus the bytes of the
    first fourteen.
  */
  predicate ValidFrame(f: Frame) {
    |f.fields| == FIELD_COUNT && f.fields[14] == HEADER_0 + HEADER_1 + ByteSum(f.fields[..14])
  }

  lemma {:induction false} SumIsByteSum(bs: seq<byte>)
    requires |bs| % 2 == 0
    ensures Sum(bs) == ByteSum(UnpackBe16s(bs))
    decreases |bs|
  {
    if |bs| > 0 {
      assert bs == bs[..2] + bs[2..];
      SumAppend(bs[..2], bs[2..]);
      assert bs[..2][..1] == [bs[0]];
      SumIsByteSum(bs[2..]);
      assert UnpackBe16s(bs)[1..] == UnpackBe16s(bs[2..]);
    }
  }

  /** The fields of a 30-byte body: the first fourteen come from the first 28 bytes. */
  lemma UnpackBodyPrefix(body: seq<byte>)
    requires |body| == BODY_SIZE
    ensures UnpackBe16s(body)[..14] == UnpackBe16s(body[..28])
  {
  }

  /**
    The byte-level check is exactly the field-level consistency of the frame
    it unpacks to, in both directions.
  */
  lemma AcceptsIffValid(body: seq<byte>)
    requires |body| == BODY_SIZE
    ensures Accepts(body) <==> ValidFrame(Frame(UnpackBe16s(body)))
  {
    UnpackBodyPrefix(body);
    SumIsByteSum(body[..28]);
  }

  // ---------------------------------------------------------------------
  // One pass of the loop

  /** What one pass of the `while True` body does. */
  datatype Pass =
    | Continue(consumed: nat)             // a `continue` after reading `consumed` bytes
    | Accept(consumed: nat, frame: Frame) // the pass reaches its end with a good frame
    | Starved                             // the first `uart.read(1)` returns None
    | Crashed                             // the body read returns None and `len(None)` raises

  /** One pass over the remaining input (pm25.py:31-63). */
  function RunPass(input: seq<byte>): (r: Pass)
    ensures r.Starved? <==> |input| == 0
    ensures r.Crashed? <==> input == [HEADER_0, HEADER_1]
    ensures r.Continue? || r.Accept? ==> 1 <= r.consumed <= |input|
    ensures r.Accept? ==> && r.consumed == 2 + BODY_SIZE
                          && input[..2] == [HEADER_0, HEADER_1]
                          && r.frame == Frame(UnpackBe16s(input[2..2 + BODY_SIZE]))
                          && ValidFrame(r.frame)
    ensures |input| >= 2 + BODY_SIZE && input[..2] == [HEADER_0, HEADER_1] ==>
              (r.Accept? <==> Accepts(input[2..2 + BODY_SIZE]))
  {
    if |input| == 0 then
      Starved
    else if input[0] != HEADER_0 then
      Continue(1)
    else if |input| == 1 then
      Continue(1)
    else if input[1] != HEADER_1 then
      Continue(2)
    else if |input| == 2 then
      Crashed
    else if |input| < 2 + BODY_SIZE then
      Continue(|input|)
    else
      var body := input[2..2 + BODY_SIZE];
      if Checksum(body) != Be16(body[28], body[29]) then
        Continue(2 + BODY_SIZE)
      else
        AcceptsIffValid(body);
        Accept(2 + BODY_SIZE, Frame(UnpackBe16s(body)))
  }

  // ---------------------------------------------------------------------
  // The whole stream

  /** How the loop stops: it idles once the input is exhausted, or raises on an empty body read. */
  datatype Halt = Exhausted | BodyReadFailed

  datatype ScanResult = ScanResult(frames: seq<Frame>, halt: Halt)

  /**
    The frames the loop accepts from `input`, in order.  Every one is a
    consistent frame, there are at most one per 32 input bytes, and the loop
    raises only when the input ends right after a header.
  */
  function Scan(input: seq<byte>): (r: ScanResult)
    ensures forall k :: 0 <= k < |r.frames| ==> ValidFrame(r.frames[k])
    ensures |r.frames| <= |input| / (2 + BODY_SIZE)
    ensures r.halt == BodyReadFailed ==> |input| >= 2 && input[|input| - 2..] == [HEADER_0, HEADER_1]
    decreases |input|
  {
    match RunPass(input)
    case Starved => ScanResult([], Exhausted)
    case Crashed => ScanResult([], BodyReadFailed)
    case Continue(n) =>
      var r := Scan(input[n..]);
      assert r.halt == BodyReadFailed ==> input[n..][|input[n..]| - 2..] == input[|input| - 2..];
      r
    case Accept(n, f) =>
      var rest := Scan(input[n..]);
      assert rest.halt == BodyReadFailed ==> input[n..][|input[n..]| - 2..] == input[|input| - 2..];
      ScanResult([f] + rest.frames, rest.halt)
  }

  /** What the sensor sends for a frame: the header, then each field big-endian. */
  function EncodeFrame(f: Frame): (bs: seq<byte>)
    ensures |bs| == 2 + 2 * |f.fields|
  {
    [HEADER_0, HEADER_1] + PackBe16s(f.fields)
  }

  function EncodeAll(fs: seq<Frame>): seq<byte> {
    if |fs| == 0 then [] else EncodeFrame(fs[0]) + EncodeAll(fs[1..])
  }

  /** A consistent frame, sent on its own, is accepted and unpacks to itself. */
  lemma EncodedFrameAccepted(f: Frame, rest: seq<byte>)
    requires ValidFrame(f)
    ensures RunPass(EncodeFrame(f) + rest) == Accept(2 + BODY_SIZE, f)
  {
    var input := EncodeFrame(f) + rest;
    var body := PackBe16s(f.fields);
    assert input[..2] == [HEADER_0, HEADER_1];
    assert input[2..2 + BODY_SIZE] == body;
    UnpackPack(f.fields);
    AcceptsIffValid(body);
  }

  /** Scanning back-to-back consistent frames gives exactly those frames. */
  lemma {:induction false} ScanRoundTrip(fs: seq<Frame>)
    requires forall k :: 0 <= k < |fs| ==> ValidFrame(fs[k])
    ensures Scan(EncodeAll(fs)) == ScanResult(fs, Exhausted)
  {
    if |fs| > 0 {
      var input := EncodeAll(fs);
      EncodedFrameAccepted(fs[0], EncodeAll(fs[1..]));
      assert input[2 + BODY_SIZE..] == EncodeAll(fs[1..]);
      ScanRoundTrip(fs[1..]);
      assert [fs[0]] + fs[1..] == fs;
    }
  }

  /** Bytes other than 0x42 are skipped one by one (pm25.py:34-36). */
  lemma {:induction false} JunkIsSkipped(junk: seq<byte>, input: seq<byte>)
    requires forall k :: 0 <= k < |junk| ==> junk[k] != HEADER_0
    ensures Scan(junk + input) == Scan(input)
  {
    if |junk| > 0 {
      ScanSkipsByte(junk + input);
      assert (junk + input)[1..] == junk[1..] + input;
      JunkIsSkipped(junk[1..], input);
    } else {
      assert junk + input == input;
    }
  }

  /** One byte other than 0x42 at the front is read and dropped. */
  lemma ScanSkipsByte(input: seq<byte>)
    requires |input| > 0 && input[0] != HEADER_0
    ensures Scan(input) == Scan(input[1..])
  {
    assert RunPass(input) == Continue(1);
  }

  /** A 0x42 followed by anything but 0x4D: both bytes are read and dropped (pm25.py:37-41). */
  lemma ScanSkipsPair(input: seq<byte>)
    requires |input| >= 2 && input[0] == HEADER_0 && input[1] != HEADER_1
    ensures Scan(input) == Scan(input[2..])
  {
    assert RunPass(input) == Continue(2);
  }

  /**
    A full body whose checksum does not match is dropped, and scanning
    resumes right after it (pm25.py:57-63).
  */
  lemma RejectedFrameIsDropped(body: seq<byte>, rest: seq<byte>)
    requires |body| == BODY_SIZE && !Accepts(body)
    ensures Scan([HEADER_0, HEADER_1] + body + rest) == Scan(rest)
  {
    var input := [HEADER_0, HEADER_1] + body + rest;
    assert input[..2] == [HEADER_0, HEADER_1];
    assert input[2..2 + BODY_SIZE] == body;
    assert input[2 + BODY_SIZE..] == rest;
  }

  /**
    A header followed by fewer than 30 bytes: the short read takes them all
    and the frame is dropped (pm25.py:47-50).
  */
  lemma ShortBodyIsDropped(short: seq<byte>)
    requires 0 < |short| < BODY_SIZE
    ensures Scan([HEADER_0, HEADER_1] + short) == ScanResult([], Exhausted)
  {
    var input := [HEADER_0, HEADER_1] + short;
    assert input[0] == HEADER_0 && input[1] == HEADER_1 && |input| > 2;
    assert RunPass(input) == Continue(|input|);
    assert input[|input|..] == [];
    assert RunPass([]) == Starved;
  }

  /**
    The byte after a 0x42 is consumed even when it is another 0x42
    (pm25.py:37-41): a stray 0x42 just before a frame takes that frame's
    header with it, and scanning resumes inside the frame.
  */
  lemma StrayHeaderByteHidesFrame(f: Frame, rest: seq<byte>)
    ensures Scan([HEADER_0] + EncodeFrame(f) + rest) == Scan(EncodeFrame(f)[2..] + rest)
  {
    var e := EncodeFrame(f);
    var input := [HEADER_0] + e + rest;
    StrayHeaderShape(e, rest);
    ScanSkipsPair(input);
    ScanSkipsByte(input[2..]);
  }

  lemma StrayHeaderShape(e: seq<byte>, rest: seq<byte>)
    requires |e| >= 2 && e[0] == HEADER_0 && e[1] == HEADER_1
    ensures var input := [HEADER_0] + e + rest;
            && input[0] == HEADER_0 && input[1] == HEADER_0 && input[2] == HEADER_1
            && input[2..][1..] == e[2..] + rest
  {
  }
}

=== FILE: registry.dfy ===
/**
  The device registry `BLEDevices` (test.py:212-253).

  Python devices are objects: the two dictionaries hold references, and a
  handler called through one is seen through the other.  The model keeps the
  objects in a heap, `objects`, and the dictionaries map to indices into it
  (`Ref`).  `devices` is keyed by `(addr_type, addr)`; `connections` maps a
  connection handle to a device, or to `None` when the connection came from a
  device the registry did not know (test.py:246).
*/
module DeviceRegistry {
  import opened Base
  import opened AdParser
  import opened Peripheral

  type Ref = nat

  /** The `(addr_type, addr)` tuple keying `devices`. */
  datatype Key = Key(addrType: int, addr: seq<byte>)

  datatype Registry = Registry(objects: seq<Device>, devices: map<Key, Ref>, connections: map<int, Option<Ref>>)

  function KeyOf(d: Device): Key {
    Key(d.addrType, d.addr)
  }

  /** Every reference points into the heap, and `devices` files each device under its own identity. */
  predicate Valid(reg: Registry) {
    && (forall k :: k in reg.devices ==> reg.devices[k] < |reg.objects| && KeyOf(reg.objects[reg.devices[k]]) == k)
    && (forall h :: h in reg.connections && reg.connections[h].Some? ==> reg.connections[h].value < |reg.objects|)
  }

  /** `BLEDevices()` (test.py:213-215). */
  function EmptyRegistry(): (reg: Registry)
    ensures Valid(reg) && reg.devices == map[] && reg.connections == map[]
  {
    Registry([], map[], map[])
  }

  /** Replace the object `r` refers to; every reference keeps pointing at the same slot. */
  function SetObject(reg: Registry, r: Ref, d: Device): (reg': Registry)
    requires r < |reg.objects|
    ensures |reg'.objects| == |reg.objects| && reg'.objects[r] == d
    ensures forall q :: 0 <= q < |reg.objects| && q != r ==> reg'.objects[q] == reg.objects[q]
    ensures reg'.devices == reg.devices && reg'.connections == reg.connections
  {
    reg.(objects := reg.objects[r := d])
  }

  /** `get_by_addr(addr_type, addr)` (test.py:217-218): `None` for an unknown key. */
  function GetByAddr(reg: Registry, addrType: int, addr: seq<byte>): (r: Option<Ref>)
    requires Valid(reg)
    ensures r.None? <==> Key(addrType, addr) !in reg.devices
    ensures r.Some? ==> r.value == reg.devices[Key(addrType, addr)]
    ensures r.Some? ==> r.value < |reg.objects| && Matches(reg.objects[r.value], addrType, addr)
  {
    var k := Key(addrType, addr);
    if k in reg.devices then Some(reg.devices[k]) else None
  }

  /**
    `get_by_conn(conn_handle)` (test.py:220-221): plain dictionary indexing,
    so an unbound handle raises `KeyError`; a handle bound to an unknown
    device yields `None`.
  */
  function GetByConn(reg: Registry, conn: int): (r: Result<Option<Ref>>)
    requires Valid(reg)
    ensures r.Err? <==> conn !in reg.connections
    ensures r.Err? ==> r.error == UnboundConnection(conn)
    ensures r.Ok? ==> r.value == reg.connections[conn]
    ensures r.Ok? && r.value.Some? ==> r.value.value < |reg.objects|
  {
    if conn in reg.connections then Ok(reg.connections[conn]) else Err(UnboundConnection(conn))
  }

  /** A registry step: the registry afterwards (partial effects included) and whether it raised. */
  datatype RegStep = RegStep(reg: Registry, status: Result<()>)

  /**
    `handle_scan_result` (test.py:223-231).  An unknown address gets a new
    device, registered only if its advertising data parses; a known one has
    its advertising data walked again (effects kept even when the walk
    raises) and its signal strength updated if the walk succeeds.
  */
  function HandleScanResult(reg: Registry, addrType: int, addr: seq<byte>, advType: int, rssi: int,
                            advData: seq<byte>): (r: RegStep)
    requires Valid(reg)
    ensures Valid(r.reg)
    ensures r.reg.connections == reg.connections
    ensures r.status.Err? ==> r.status.error == BufferTooSmall
    ensures |reg.objects| <= |r.reg.objects|
    ensures forall p :: 0 <= p < |reg.objects| ==>
              KeyOf(r.reg.objects[p]) == KeyOf(reg.objects[p]) && r.reg.objects[p].state == reg.objects[p].state
              && r.reg.objects[p].readResult == reg.objects[p].readResult
    ensures Key(addrType, addr) in reg.devices ==>
              var q := reg.devices[Key(addrType, addr)];
              && r.reg.devices == reg.devices
              && |r.reg.objects| == |reg.objects|
              && (forall p :: 0 <= p < |reg.objects| && p != q ==> r.reg.objects[p] == reg.objects[p])
              && (r.status.Ok? <==> ParseAdvertisingData(Corrected, reg.objects[q].ad, advData).ok)
              && r.reg.objects[q].ad == ParseAdvertisingData(Corrected, reg.objects[q].ad, advData).fields
              && r.reg.objects[q].ad.uuids >= reg.objects[q].ad.uuids
              && r.reg.objects[q].advType == reg.objects[q].advType
              && r.reg.objects[q].state == reg.objects[q].state
              && r.reg.objects[q].connHandle == reg.objects[q].connHandle
              && r.reg.objects[q].rssi == (if r.status.Ok? then Some(rssi) else reg.objects[q].rssi)
    ensures Key(addrType, addr) !in reg.devices ==>
              && (r.status.Ok? <==> ParseAdvertisingData(Corrected, AdFields(None, {}), advData).ok)
              && (r.status.Err? ==> r.reg == reg)
              && (r.status.Ok? ==>
                    && |r.reg.objects| == |reg.objects| + 1
                    && r.reg.objects[..|reg.objects|] == reg.objects
                    && r.reg.devices == reg.devices[Key(addrType, addr) := |reg.objects|]
                    && r.reg.objects[|reg.objects|].ad == ParseAdvertisingData(Corrected, AdFields(None, {}), advData).fields
                    && !IsBusy(r.reg.objects[|reg.objects|])
                    && r.reg.objects[|reg.objects|].rssi == Some(rssi)
                    && r.reg.objects[|reg.objects|].advType == Some(advType)
                    && r.reg.objects[|reg.objects|].connHandle.None?
                    && r.reg.objects[|reg.objects|].readResult.None?)
  {
    match GetByAddr(reg, addrType, addr)
    case None =>
      (match NewDevice(addrType, addr, Some(advType), Some(rssi), Some(advData))
       case Err(e) => RegStep(reg, Err(e))
       case Ok(d) =>
         var q := |reg.objects|;
         RegStep(Registry(reg.objects + [d], reg.devices[Key(addrType, addr) := q], reg.connections), Ok(())))
    case Some(q) =>
      var (d, ok) := ParseAdvertisement(reg.objects[q], advData);
      if ok then RegStep(SetObject(reg, q, d.(rssi := Some(rssi))), Ok(()))
      else RegStep(SetObject(reg, q, d), Err(BufferTooSmall))
  }

  /**
    `handle_disconnect(conn_handle, addr)` (test.py:233-240): an unbound
    handle is reported and ignored; a bound one resets its device, if any, and
    loses its binding.  The device stays known by address.
  */
  function HandleDisconnect(reg: Registry, conn: int): (reg': Registry)
    requires Valid(reg)
    ensures Valid(reg')
    ensures conn !in reg.connections ==> reg' == reg
    ensures conn in reg.connections ==> reg'.connections == reg.connections - {conn}
    ensures reg'.devices == reg.devices && |reg'.objects| == |reg.objects|
    ensures forall q :: 0 <= q < |reg.objects| ==>
              if conn in reg.connections && reg.connections[conn] == Some(q)
              then reg'.objects[q] == Peripheral.HandleDisconnect(reg.objects[q])
              else reg'.objects[q] == reg.objects[q]
  {
    if conn !in reg.connections then
      reg
    else
      var reg1 := match reg.connections[conn]
                  case Some(q) => SetObject(reg, q, Peripheral.HandleDisconnect(reg.objects[q]))
                  case None => reg;
      reg1.(connections := reg1.connections - {conn})
  }

  /**
    `handle_connect(addr_type, addr, conn_handle)` (test.py:242-249): the
    handle is bound to whatever `get_by_addr` finds, `None` included, and a
    known device records its handle and is idle.
  */
  function HandleConnect(reg: Registry, addrType: int, addr: seq<byte>, conn: int): (reg': Registry)
    requires Valid(reg)
    ensures Valid(reg')
    ensures GetByConn(reg', conn) == Ok(GetByAddr(reg, addrType, addr))
    ensures reg'.connections == reg.connections[conn := GetByAddr(reg, addrType, addr)]
    ensures reg'.devices == reg.devices && |reg'.objects| == |reg.objects|
    ensures forall q :: 0 <= q < |reg.objects| ==>
              if GetByAddr(reg, addrType, addr) == Some(q)
              then reg'.objects[q] == HandleConnection(reg.objects[q], conn)
              else reg'.objects[q] == reg.objects[q]
  {
    match GetByAddr(reg, addrType, addr)
    case None => reg.(connections := reg.connections[conn := None])
    case Some(q) =>
      var reg1 := SetObject(reg, q, HandleConnection(reg.objects[q], conn));
      reg1.(connections := reg1.connections[conn := Some(q)])
  }

  /**
    `connect(dev)` (test.py:251-253) for a `dev` the registry does not hold
    yet, as the script's own call passes: the object is filed under its
    address, replacing any earlier object there, and starts connecting.
    Returns the new object's reference and the radio command.
  */
  function Connect(reg: Registry, d: Device): (r: (Registry, Ref, Command))
    requires Valid(reg)
    ensures Valid(r.0)
    ensures r.1 == |reg.objects| && |r.0.objects| == |reg.objects| + 1 && r.0.objects[..|reg.objects|] == reg.objects
    ensures GetByAddr(r.0, d.addrType, d.addr) == Some(r.1)
    ensures r.0.objects[r.1].state == Connecting && OnlyStateDiffers(d, r.0.objects[r.1])
    ensures r.0.connections == reg.connections
    ensures forall k :: k in reg.devices && k != KeyOf(d) ==> k in r.0.devices && r.0.devices[k] == reg.devices[k]
    ensures r.0.devices == reg.devices[KeyOf(d) := r.1]
    ensures r.2 == GapConnect(d.addrType, d.addr)
  {
    var q := |reg.objects|;
    var (d', cmd) := Peripheral.Connect(d);
    (Registry(reg.objects + [d'], reg.devices[KeyOf(d) := q], reg.connections), q, cmd)
  }

  /**
    `connect(dev)` for a `dev` the registry already holds as object `q` (one
    `get_by_addr` returned, say): the same object is filed under its address
    and starts connecting in place, so every connection handle bound to it
    still reaches it.
  */
  function ConnectObject(reg: Registry, q: Ref): (r: (Registry, Command))
    requires Valid(reg) && q < |reg.objects|
    ensures Valid(r.0)
    ensures |r.0.objects| == |reg.objects|
    ensures r.0.objects[q].state == Connecting && OnlyStateDiffers(reg.objects[q], r.0.objects[q])
    ensures forall p :: 0 <= p < |reg.objects| && p != q ==> r.0.objects[p] == reg.objects[p]
    ensures GetByAddr(r.0, reg.objects[q].addrType, reg.objects[q].addr) == Some(q)
    ensures forall k :: k in reg.devices && k != KeyOf(reg.objects[q]) ==> k in r.0.devices && r.0.devices[k] == reg.devices[k]
    ensures r.0.devices == reg.devices[KeyOf(reg.objects[q]) := q]
    ensures r.0.connections == reg.connections
    ensures r.1 == GapConnect(reg.objects[q].addrType, reg.objects[q].addr)
  {
    var (d', cmd) := Peripheral.Connect(reg.objects[q]);
    var reg1 := SetObject(reg, q, d');
    (reg1.(devices := reg1.devices[KeyOf(d') := q]), cmd)
  }

  // ---------------------------------------------------------------------
  // Properties across calls.

  /**
    Connecting a scanned device that a connection handle is still bound to
    keeps the binding: `get_by_conn` on that handle finds the very object that
    is now connecting.
  */
  lemma ConnectKeepsBinding(reg: Registry, q: Ref, conn: int)
    requires Valid(reg) && q < |reg.objects|
    requires conn in reg.connections && reg.connections[conn] == Some(q)
    ensures var reg' := ConnectObject(reg, q).0;
            GetByConn(reg', conn) == Ok(Some(q)) && reg'.objects[q].state == Connecting
            && GetByAddr(reg', reg.objects[q].addrType, reg.objects[q].addr) == Some(q)
  {
  }

  /**
    Two scans of one address add at most one device: once a scan has filed
    the address (or it was known already), the next scan resolves to that
    object and adds nothing.
  */
  lemma RepeatScanAddsNoDevice(reg: Registry, addrType: int, addr: seq<byte>, advType: int, rssi: int,
                               data1: seq<byte>, advType2: int, rssi2: int, data2: seq<byte>)
    requires Valid(reg)
    ensures var s1 := HandleScanResult(reg, addrType, addr, advType, rssi, data1).reg;
            var s2 := HandleScanResult(s1, addrType, addr, advType2, rssi2, data2).reg;
            && |s2.objects| <= |reg.objects| + 1
            && (Key(addrType, addr) in s1.devices <==>
                  Key(addrType, addr) in reg.devices || HandleScanResult(reg, addrType, addr, advType, rssi, data1).status.Ok?)
            && (Key(addrType, addr) in s1.devices ==>
                  |s2.objects| == |s1.objects| && s2.devices == s1.devices
                  && GetByAddr(s2, addrType, addr) == GetByAddr(s1, addrType, addr))
  {
    var s1 := HandleScanResult(reg, addrType, addr, advType, rssi, data1);
    if Key(addrType, addr) !in reg.devices && s1.status.Err? {
      assert s1.reg == reg;
    }
  }

  /**
    A connect followed by the radio's connection event binds the handle to
    exactly the object `get_by_addr` returns, idle and holding the handle; a
    disconnect then unbinds the handle while the address still finds the
    device, idle again.
  */
  lemma ConnectBindDisconnect(reg: Registry, d: Device, conn: int)
    requires Valid(reg)
    ensures var (r1, q, _) := Connect(reg, d);
            var r2 := HandleConnect(r1, d.addrType, d.addr, conn);
            var r3 := HandleDisconnect(r2, conn);
            && GetByConn(r2, conn) == Ok(Some(q))
            && GetByAddr(r2, d.addrType, d.addr) == Some(q)
            && r2.objects[q].connHandle == Some(conn) && !IsBusy(r2.objects[q])
            && GetByConn(r3, conn).Err?
            && GetByAddr(r3, d.addrType, d.addr) == Some(q)
            && !IsBusy(r3.objects[q]) && r3.objects[q].connHandle == Some(conn)
  {
    var (r1, q, _) := Connect(reg, d);
    var r2 := HandleConnect(r1, d.addrType, d.addr, conn);
    assert r2.objects[q] == HandleConnection(r1.objects[q], conn);
  }

  /** A connection event from an address the registry does not know binds the handle to `None`. */
  lemma ConnectFromUnknownDevice(reg: Registry, addrType: int, addr: seq<byte>, conn: int)
    requires Valid(reg) && Key(addrType, addr) !in reg.devices
    ensures GetByConn(HandleConnect(reg, addrType, addr, conn), conn) == Ok(None)
    ensures HandleConnect(reg, addrType, addr, conn).objects == reg.objects
  {
  }
}
